=== FILE: README.md ===
# Spanker reader and serializer, modelled in Dafny

Spanker is a Swift JSON library built for speed. It has two halves, and this project models both:

- **The reader.** `Spanker.Reader.parsed(data:)` makes one pass over a byte buffer, which the code assumes to be followed by a zero byte. It keeps:
  - a cursor;
  - a stack of open containers;
  - the "current element";
  - a small attribute record `ParseValue`, which holds the name and value offsets of a pending key.

  It hands the root `JsonElement` to a callback. It is a permissive reader that never reports an error: bytes it does not expect are skipped or read as numbers.
- **The value tree and serializer.** `JsonElement` is a tagged node with optional payload fields. Its `json(hitch:)` method appends compact JSON text to a buffer.

The model is pure and immutable:

- **Reader state.** The reader's mutable state is a `State` value:
  - the cursor;
  - a stack of frames;
  - the attribute record;
  - the root;
  - the scalar that stands as the current element when the stack is empty.

  Each loop iteration of the Swift `while true` is one `Reader.Step`. The loop itself is `Reader.Run`, and the final popping loop is `Reader.Drain`.
- **Reference semantics.** Swift's `JsonElement` is a class, and a container is shared by the stack and its parent. In the model, each frame records how it attaches to the frame below: under a key, without one, or not at all. The child is folded into its parent when it is popped. This gives the same final tree as the shared objects do.
- **Reads at and past the end.** The Swift code reads `raw[i]` at `i == count` as if a zero byte stood there, and in one case up to two bytes further on (see "## Left out"). Nothing in the code puts a zero byte at `count`: `parsed(string:)` passes the UTF-8 `Data` of the string (Spanker+Reader.swift:77) and `HalfHitch.using(data:)` (:91) is handed that same `Data`, with nothing appended. `Bytes.At` returns NUL for every index at or past the end.
- **Foreign code becomes parameters.** Hitch's `toInt()` and `toDouble()` are the parameter `Reader.Numbers`. Hitch's `append(number:)` and `append(double:)` are the parameter `Serializer.Formats`. Doubles are the opaque bit pattern `Element.Float64`.
- **Integer width.** `Int` is a 64-bit newtype (`Element.int64`). No arithmetic is done on it.

`ReaderLoop.Parsed` is the imperative form of the reader: the two Swift loops with their invariants. Its contract ties it to the functional model. It also states what the model proves about every input: any root is well formed and can be serialized, and there is no root exactly when the buffer holds only separators and close bytes (`}` and `]`).

## Code behaviour the model keeps

Each item below is what the Swift code does where its names or comments suggest something else. The model follows the code.

- **Escapes.** The name `strstrNoEscaped` and its comment at Sources/Spanker/Spanker+Reader.swift:17 say that escaped copies of the sought byte are not counted. Nothing ever sets its `skipNext` flag, though. A backslash therefore escapes nothing, and the string `"a\"b"` ends at the escaped quote and reads as `a\`. See `Scanner.BackslashDoesNotEscape` and `Scanner.EscapedQuoteEndsString`.
- **A number before `]` closes twice.** The comment at :221 says a number runs to the next `,`, `}` or whitespace. When a number ends at `]` instead, the reader pops once right after the number (Sources/Spanker/Spanker+Reader.swift:269-271 and :354-356). It then leaves the cursor on the `]`, so the next iteration pops again (:154-155). This closes the enclosing container as well, so nested input such as `[1,[2,3],{"k":4}]` does not come back as written. `ReaderSteps.NumberBeforeCloseBracePopsTwice` states this.
- **Unreachable `- 1`.** The comment at :292 says an open byte is left for the next iteration, and the `nextCurrentIdx - 1` at :293 goes with that branch. The line can never run. The re-skip at :275 never moves, because the cursor already skipped whitespace at :146. So the byte it tests is the one at the cursor, and an open byte there was already handled at :156. `Reader.ValueStep` reaches the shared value reader with the cursor unchanged, and the model does not write the `- 1`.
- **No string escaping on output.** `json(hitch:)` writes string payloads (Sources/Spanker/Spanker.swift:68-72) and keys (:106-108) between double quotes without escaping them. Text therefore reads back unchanged only when it holds no double quote and no NUL byte. This is the condition `RoundTrip.Quotable`.

## Model

| member | source | states |
|---|---|---|
| Bytes.At | Sources/Spanker/Spanker+Reader.swift:253-254 | Inside the buffer it returns the byte at the index; at or past the end it returns NUL, the terminator the Swift code assumes. |
| Bytes.Slice | Sources/Spanker/Spanker+Reader.swift:104-125 | A span within the buffer is exactly its bytes; an empty or inverted span has none; a span is never longer than the buffer. |
| Scanner.StrSkip | Sources/Spanker/Spanker+Reader.swift:5-13 | The result is at least the offset and at most the length. Every byte skipped is non-NUL and in the allowed set. The byte it stops at is NUL, not allowed, or the end. |
| Scanner.StrstrNoEscaped | Sources/Spanker/Spanker+Reader.swift:16-33 | The result is the first position at or after the offset holding the sought byte or NUL, or the end of the buffer. No byte before it matches. |
| Scanner.BackslashDoesNotEscape | Sources/Spanker/Spanker+Reader.swift:18-26 | Writing a backslash over any non-matching, non-NUL byte leaves the result unchanged, because `skipNext` is never set. |
| Scanner.EscapedQuoteEndsString | Sources/Spanker/Spanker+Reader.swift:16-33 | In `"a\"b"` the search for the closing quote stops at the escaped quote, at position 3. |
| Reader.Clear | Sources/Spanker/Spanker+Reader.swift:60-64 | Resets the type, name offset and value offset, and keeps the end-of-name offset. |
| Reader.ClearForgetsName | Sources/Spanker/Spanker+Reader.swift:60-64 | After a clear no name is pending, so the next key must be scanned afresh; clearing twice is the same as clearing once. |
| Reader.AttributeName | Sources/Spanker/Spanker+Reader.swift:121-125 | There is a name exactly when 0 < nameIdx < endNameIdx, and the name is the bytes between the two offsets. |
| Reader.EndElement | Sources/Spanker/Spanker+Reader.swift:93-102 | On an empty stack it changes nothing and there is no current element. Otherwise it pops one frame and folds it into the frame below. The popped node becomes the root exactly when it was the last frame. |
| Reader.AppendElement | Sources/Spanker/Spanker+Reader.swift:127-140 | An array current element takes the value, with or without a key. A dictionary takes the value only with a key. Any other current element leaves the state unchanged. With no current element, the value becomes both root and current element. |
| Reader.Open | Sources/Spanker/Spanker+Reader.swift:156-172 | Pushes a new dictionary for `{` or a new array for `[`. The new frame attaches under the pending name if there is one, else without a key, or not at all when the stack was empty. The attribute is cleared only when there was a current element. |
| Reader.ScanToken | Sources/Spanker/Spanker+Reader.swift:225-255 | A number token runs to the first whitespace, comma, close byte or end, and is a double exactly when a `.` lies in it. `true` and `false` end just after the literal. It always advances on a non-ending byte. |
| Reader.ScanTokenTakesFirstLiteral | Sources/Spanker/Spanker+Reader.swift:233-249 | No `true` or `false` literal starts inside a number token. A boolean token ends with the first literal met, before any byte that ends a token, and `false` is tried before `true` at each position. |
| Reader.AsInt | Sources/Spanker/Spanker+Reader.swift:109-113 | A span that converts gives an Int node with that value; one that does not gives a null node. |
| Reader.AsDouble | Sources/Spanker/Spanker+Reader.swift:115-119 | A span that converts gives a Double node with that value; one that does not gives a null node. |
| Reader.Fold | Sources/Spanker/Spanker+Reader.swift:163-168 | Linking a closed container into its parent appends it to the parent's children, and its key to the parent's keys when it was opened under a key. A container opened with an empty stack is linked nowhere. The parent's tag and scalar payloads never change. |
| Reader.TokenElement | Sources/Spanker/Spanker+Reader.swift:257-265 | The outcome of the number loop becomes a well-formed scalar: a boolean with its truth value, or an Int or Double node when the span converts and a null node when it does not. |
| Reader.ParseValueAt | Sources/Spanker/Spanker+Reader.swift:194-272 | An open byte leaves the value for the next iteration with the cursor on it. Any other value that does not start with an ending byte moves the cursor forward. |
| Reader.ScanKey | Sources/Spanker/Spanker+Reader.swift:177-189 | The key ends at the first matching quote, NUL or end after the opening quote. The colon search stops at the first colon, NUL or end after the key's closing quote. The value starts after it and after any whitespace, on a byte that is not whitespace. |
| Reader.Cursor | Sources/Spanker/Spanker+Reader.swift:146 | The next iteration classifies the first byte at or after the cursor that is not a separator, or a NUL, or the end; every byte skipped is a non-NUL separator. |
| Reader.KeyStep | Sources/Spanker/Spanker+Reader.swift:174-273 | A key step either moves the cursor forward, or stays in place only after recording a fresh name offset when there was none. This is what makes the empty-key `continue` terminate. |
| Reader.ValueStep | Sources/Spanker/Spanker+Reader.swift:274-358 | A value step outside a dictionary key always moves the cursor forward. |
| Reader.Step | Sources/Spanker/Spanker+Reader.swift:145-361 | Each iteration of the main loop moves the cursor forward, or records a name offset in place. |
| Reader.Parse | Sources/Spanker/Spanker+Reader.swift:81-371 | `parsed(data:)` as a function: the main loop, then the final pops, then the root. It has no contract of its own; ReaderProofs.ParseIsWellFormed and ReaderRoot.NoRootIffOnlyClosers state what its result means. |
| Reader.Run | Sources/Spanker/Spanker+Reader.swift:145-147 | When the main loop stops, skipping separators from its cursor reaches the end of the buffer. |
| Reader.Drain | Sources/Spanker/Spanker+Reader.swift:364-366 | The final loop empties the stack. A root exists afterwards whenever the stack was non-empty, and an empty stack is left as it was. |
| ReaderLoop.Parsed | Sources/Spanker/Spanker+Reader.swift:81-371 | The imperative loops compute the root of the functional model. Any root is well formed and can be serialized. There is no root exactly when every byte is a separator or a close byte. |
| ReaderProofs.StartSatisfiesInv | Sources/Spanker/Spanker+Reader.swift:82-89 | The initial state satisfies the reader invariant. |
| ReaderProofs.EndElementKeepsInv | Sources/Spanker/Spanker+Reader.swift:93-102 | Popping keeps every open node and the root well formed. |
| ReaderProofs.AppendElementKeepsInv | Sources/Spanker/Spanker+Reader.swift:127-140 | Appending a well-formed scalar keeps the invariant. |
| ReaderProofs.AppendWithEmptyStack | Sources/Spanker/Spanker+Reader.swift:128-135 | When the current element is a loose scalar, appending to it changes nothing. |
| ReaderProofs.OpenKeepsInv | Sources/Spanker/Spanker+Reader.swift:156-172 | Opening a container keeps the invariant. |
| ReaderProofs.TokenElementIsScalar | Sources/Spanker/Spanker+Reader.swift:257-265 | The node built from a scanned token is a well-formed scalar. |
| ReaderProofs.ParseValueAtKeepsInv | Sources/Spanker/Spanker+Reader.swift:194-272 | Reading one value keeps the invariant. |
| ReaderProofs.TokenValueKeepsInv | Sources/Spanker/Spanker+Reader.swift:220-271 | The number and boolean branch of the value parser, with its possible pop on `]`, keeps the invariant. |
| ReaderProofs.KeyStepKeepsInv | Sources/Spanker/Spanker+Reader.swift:174-273 | A key step keeps the invariant. |
| ReaderProofs.ValueStepKeepsInv | Sources/Spanker/Spanker+Reader.swift:274-358 | A value step keeps the invariant. |
| ReaderProofs.StepKeepsInv | Sources/Spanker/Spanker+Reader.swift:145-361 | Every loop iteration keeps the invariant. |
| ReaderProofs.RunKeepsInv | Sources/Spanker/Spanker+Reader.swift:145-361 | The whole main loop keeps the invariant. |
| ReaderProofs.DrainKeepsInv | Sources/Spanker/Spanker+Reader.swift:364-366 | The final loop keeps the invariant. |
| ReaderProofs.FoldKeepsWellFormed | Sources/Spanker/Spanker+Reader.swift:163-168 | Attaching a well-formed child to a well-formed parent keeps the parent well formed. |
| ReaderProofs.ParseIsWellFormed | Sources/Spanker/Spanker+Reader.swift:81-371 | Any root the reader hands to its callback is well formed and can be serialized. |
| ReaderRoot.QuietRunStaysQuiet | Sources/Spanker/Spanker+Reader.swift:145-155 | Over separators and close bytes alone, the loop never produces a root or opens a container. |
| ReaderRoot.QuietValueRoots | Sources/Spanker/Spanker+Reader.swift:156-358 | From the initial state, any byte other than a separator or close byte produces a root or opens a container. |
| ReaderRoot.StepKeepsRooted | Sources/Spanker/Spanker+Reader.swift:145-361 | Once a root exists or a container is open, no iteration undoes that. |
| ReaderRoot.ParseValueAtKeepsRooted | Sources/Spanker/Spanker+Reader.swift:194-272 | Reading a value never undoes an existing root or open container. |
| ReaderRoot.RunKeepsRooted | Sources/Spanker/Spanker+Reader.swift:145-361 | The main loop never undoes an existing root or open container. |
| ReaderRoot.QuietRunRoots | Sources/Spanker/Spanker+Reader.swift:145-361 | From the initial state, input with any other byte ends with a root or an open container. |
| ReaderRoot.NoRootIffOnlyClosers | Sources/Spanker/Spanker+Reader.swift:145-147 | The callback receives no root if and only if the buffer holds only separators and close bytes. |
| ReaderRoot.BlankInputHasNoRoot | Sources/Spanker/Spanker+Reader.swift:145-147 | Empty or all-separator input gives no root. |
| ReaderSteps.CursorStaysOnClose | Sources/Spanker/Spanker+Reader.swift:146 | The separator skip never moves past a close byte. |
| ReaderSteps.QuotedValueAt | Sources/Spanker/Spanker+Reader.swift:195-206 | A quoted value replaces the top node with the string of the bytes up to the next occurrence of its quote byte appended, and changes nothing else on the stack. The cursor moves past that quote and the attribute is cleared. |
| ReaderSteps.NullValueAt | Sources/Spanker/Spanker+Reader.swift:209-219 | `null` appends a null node to the top node and nothing else on the stack changes; the cursor moves four bytes and the attribute is cleared. |
| ReaderSteps.TrueValueAt | Sources/Spanker/Spanker+Reader.swift:242-249 | `true` appends a true node to the top node and nothing else on the stack changes; the cursor moves four bytes and the attribute is cleared. |
| ReaderSteps.FalseValueAt | Sources/Spanker/Spanker+Reader.swift:233-241 | `false` appends a false node to the top node and nothing else on the stack changes; the cursor moves five bytes and the attribute is cleared. |
| ReaderSteps.NumberValueAt | Sources/Spanker/Spanker+Reader.swift:220-271 | A number appends the converted node to the top node with the rest of the stack unchanged, or, when it ended on `]`, also pops that node into the frame below (or makes it the root). The cursor stops on the ending byte and the attribute is cleared. |
| ReaderSteps.ArrayStepParsesValue | Sources/Spanker/Spanker+Reader.swift:274-276 | Inside an array, a byte that neither opens nor closes is read as a value with no key, starting at the cursor. |
| ReaderSteps.QuotedValueInArray | Sources/Spanker/Spanker+Reader.swift:279-290 | A quoted value inside an array appends the bytes up to the closing quote as a string node. It moves the cursor past the quote and clears the attribute. The lower frames, the top frame's attachment, the root and the loose scalar stay as they were. |
| ReaderSteps.NullValueInArray | Sources/Spanker/Spanker+Reader.swift:294-304 | `null` inside an array appends a null node, moves the cursor four bytes and clears the attribute. The lower frames, the top frame's attachment, the root and the loose scalar stay as they were. |
| ReaderSteps.TrueValueInArray | Sources/Spanker/Spanker+Reader.swift:327-334 | `true` inside an array appends a true node, moves the cursor four bytes and clears the attribute. Nothing else changes. |
| ReaderSteps.FalseValueInArray | Sources/Spanker/Spanker+Reader.swift:318-326 | `false` inside an array appends a false node, moves the cursor five bytes and clears the attribute. Nothing else changes. |
| ReaderSteps.NumberInArray | Sources/Spanker/Spanker+Reader.swift:305-357 | A number inside an array appends the converted node, stops at the ending byte and clears the attribute, with the rest of the stack unchanged. When that byte is `]` it also pops the array: into the frame below, the frames under that unchanged, or into the root. |
| ReaderSteps.NumberBeforeCloseBracePopsTwice | Sources/Spanker/Spanker+Reader.swift:154-155 | After a number ended by `]`, the cursor still rests on the `]`, and the next iteration pops a second frame. |
| ReaderSteps.KeyedStepParsesValue | Sources/Spanker/Spanker+Reader.swift:177-194 | With a dictionary current and no pending key, a quote starting a non-empty key records the key's span and reads the value after the colon under that key. |
| ReaderSteps.KeyedStringValue | Sources/Spanker/Spanker+Reader.swift:195-206 | Inside a dictionary, a non-empty key with a quoted value adds that key and a string node, and clears the attribute but for the key's end. The lower frames, the top frame's attachment, the root and the loose scalar stay as they were. |
| ReaderSteps.KeyedNullValue | Sources/Spanker/Spanker+Reader.swift:209-219 | `"key": null` adds the key and a null node, moves the cursor four bytes past the value start and clears the attribute but for the key's end. Nothing else changes. |
| ReaderSteps.KeyedTrueValue | Sources/Spanker/Spanker+Reader.swift:242-249 | `"key": true` adds the key and a true node and moves the cursor four bytes past the value start. Nothing else changes. |
| ReaderSteps.KeyedFalseValue | Sources/Spanker/Spanker+Reader.swift:233-241 | `"key": false` adds the key and a false node and moves the cursor five bytes past the value start. Nothing else changes. |
| ReaderSteps.KeyedNumberValue | Sources/Spanker/Spanker+Reader.swift:220-271 | `"key": <number>` adds the key and the converted node and stops on the ending byte. A `}` there is classified by the next iteration; a `]` pops the dictionary at once. |
| ReaderSteps.KeyedContainerIsDeferred | Sources/Spanker/Spanker+Reader.swift:207-208 | A key whose value is `{` or `[` leaves the cursor on the open byte. The next iteration opens the container under that key. |
| ReaderSteps.EmptyKeyIsSkipped | Sources/Spanker/Spanker+Reader.swift:191 | An empty key records its name offset without moving the cursor. The next iteration then steps over the quote. |
| ReaderSteps.LiteralStartsWithItsFirstByte | Sources/Spanker/Spanker+Reader.swift:209-213 | A literal that matches at a position starts with its own first byte there. |
| Element.NullElement | Sources/Spanker/Spanker.swift:149-159 | A null node has no payload. |
| Element.StringElement | Sources/Spanker/Spanker.swift:161-171 | A string node carries exactly the given bytes. |
| Element.BoolElement | Sources/Spanker/Spanker.swift:173-183 | A boolean node carries exactly the given truth value. |
| Element.IntElement | Sources/Spanker/Spanker.swift:185-195 | An int node carries exactly the given integer. |
| Element.DoubleElement | Sources/Spanker/Spanker.swift:197-207 | A double node carries exactly the given value. |
| Element.ArrayElement | Sources/Spanker/Spanker.swift:209-219 | An array node holds the given children and no keys. |
| Element.DictionaryElement | Sources/Spanker/Spanker.swift:221-232 | A dictionary node starts with empty keys and children, whatever arguments are passed. |
| Element.AppendValue | Sources/Spanker/Spanker.swift:137-140 | Adds the value after the existing children when there are child slots, and otherwise changes nothing. |
| Element.AppendKeyValue | Sources/Spanker/Spanker.swift:142-147 | Adds the key when there is a key list, and the value when there are child slots, each independently. |
| Element.AppendToScalarIsNoOp | Sources/Spanker/Spanker.swift:137-147 | Appending to a scalar node leaves it unchanged. |
| Element.AppendKeyValueKeepsPairs | Sources/Spanker/Spanker.swift:142-147 | On a dictionary with as many keys as children, appending a pair keeps the two lists the same length. |
| Element.InitializersAreWellFormed | Sources/Spanker/Spanker.swift:149-232 | Every scalar initializer and `init(keys:values:)`, whatever its arguments, builds a well-formed node; `init(array:)` does when its children are well formed. |
| Element.AppendKeepsWellFormed | Sources/Spanker/Spanker.swift:137-147 | Appending well-formed children keeps a node well formed. |
| Element.WellFormedIsSerializable | Sources/Spanker/Spanker.swift:101-114 | A well-formed node never indexes past its children when serialized. |
| Serializer.WriteJson | Sources/Spanker/Spanker.swift:41-121 | `json(hitch:)` in the source's shape, appending to a buffer. It has no contract of its own; Serializer.WriteJsonAppends states its meaning. |
| Serializer.WriteItems | Sources/Spanker/Spanker.swift:91-96 | The array loop of `json(hitch:)`. It has no contract of its own; Serializer.WriteItemsAppends states its meaning. |
| Serializer.WriteMembers | Sources/Spanker/Spanker.swift:105-114 | The dictionary loop of `json(hitch:)`. It has no contract of its own; Serializer.WriteMembersAppends states its meaning. |
| Serializer.WriteJsonAppends | Sources/Spanker/Spanker.swift:41-121 | `json(hitch:)` only appends: the buffer's old contents stay a prefix, and what follows is the node's reference text. |
| Serializer.WriteItemsAppends | Sources/Spanker/Spanker.swift:91-96 | The array loop appends the children's texts separated by commas, with no trailing comma. |
| Serializer.WriteMembersAppends | Sources/Spanker/Spanker.swift:105-114 | The dictionary loop appends the members, each `"key":value`, separated by commas. |
| Serializer.MissingPayloadIsNull | Sources/Spanker/Spanker.swift:42-47 | A node whose tag has no matching payload is written as `null`. |
| Serializer.ScalarTexts | Sources/Spanker/Spanker.swift:51-75 | Booleans are written as `true` or `false`, and strings between double quotes with no escaping. |
| Serializer.ArrayText | Sources/Spanker/Spanker.swift:88-100 | An array is written as `[`, its children's texts joined by commas, then `]`. The joined text is the children's total length plus one comma between each pair. |
| Serializer.DictionaryText | Sources/Spanker/Spanker.swift:101-118 | A dictionary is written as `{`, its members joined by commas, then `}`. Each member is the quoted key, a colon and the matching child's text. |
| Serializer.JoinAddsOnlySeparators | Sources/Spanker/Spanker.swift:93-95 | Joining adds exactly one comma between parts and no other byte. |
| Serializer.JoinSuffix | Sources/Spanker/Spanker.swift:93-95 | A joined list is its first part followed, unless it is the last, by a comma and the rest. |
| RoundTrip.StringRoundTrip | Sources/Spanker/Spanker.swift:68-72 | Reading the text of a string node without quote or NUL bytes gives back the same node. |
| RoundTrip.StringArrayRoundTrip | Sources/Spanker/Spanker.swift:88-100 | Reading the text of an array of such strings gives back the same array. |
| RoundTrip.ReadRemainingStrings | Sources/Spanker/Spanker+Reader.swift:279-290 | Inside an array, the loop reads each remaining quoted string and the closing `]`, leaving the complete array as the root. |

## Left out

- The `parse()` extensions on `Data`, `Hitch` and `String`, and `Spanker.parse(hitch:data:string:)` (Sources/Spanker/Spanker.swift:4-23, 235-250), are left out. They only convert the input and call the reader. `parse(hitch:)` constructs a `Reader` instance and calls `parse()` on it, and neither is part of this model.
- `parsed(hitch:)` and `parsed(string:)` (Sources/Spanker/Spanker+Reader.swift:71-78) are left out: they only convert the input to `Data`.
- Hitch and HalfHitch are not part of this model. Spans are modelled by the bytes they cover. `Bytes.Slice` clamps a span to the buffer; that is the model's own choice for the one out-of-range span the reader can form (see "Reads past `count`" below), not a statement about HalfHitch.
- `toInt()`, `toDouble()`, `append(number:)` and `append(double:)` are foreign code. They are the parameters `Reader.Numbers` and `Serializer.Formats`. Floating point is an opaque 64-bit pattern.
- The callback is replaced by the returned root. The reader's reference-counted object graph, memory lifetime and zero-copy buffers are not modelled.
- `description` (Sources/Spanker/Spanker.swift:123-126) is left out: it is `json(hitch:)` on an empty buffer and a conversion to `String`.
- The `ElementType` enum (Sources/Spanker/Spanker+Reader.swift:48-52) is never used, and the `null` and `element` cases of `ValueType` (:37-46) are never assigned; `Reader.ValueType` keeps the six cases the reader writes. The `string` case is written (:197, :281) but never read.
- Reader.ParseValueAt: the ensures states progress and the deferred-container case only. The effect of each branch is stated by the `...ValueAt` lemmas in ReaderSteps for a container that takes the value, and by their array and keyed forms (`...InArray`, `Keyed...`). The branch effects in a state where the value is dropped (a scalar or keyless dictionary current) are covered only by the invariant lemmas.
- Reader.KeyStep, Reader.ValueStep and Reader.Step: the ensures state progress only. What each iteration preserves is stated by ReaderProofs and ReaderRoot, and its per-branch effect by ReaderSteps.
- RoundTrip.StringArrayRoundTrip: covers only arrays of strings. Numbers depend on the foreign conversions, and nested arrays whose inner array ends in a number hit the double pop described above; nested containers of strings, which do not, are not covered either.
- Reads past `count`: the Swift reader reads `raw[count]` whenever a scan runs to the end (:194, :254), and for `{"abc` it reads further: the key runs to the end, the colon search starts at `count + 1`, and :194 reads `raw[count + 2]`. The buffer is the string's or hitch's `Data` and holds exactly `count` bytes, so all of these reads, the one at `count` included, are out of bounds in the source, and their result is undefined. The model reads every such byte as NUL (`Bytes.At`), which is what the value parser then acts on.
- Serializer.Json and Serializer.WriteJson: both require `Serializable`, so a dictionary with more keys than child values is outside their contract. On such a node `json(hitch:)` traps at Sources/Spanker/Spanker.swift:110, and since `keyArray` is a public `var` (:135) a caller can build one. The reader never builds one, as ReaderProofs.ParseIsWellFormed shows.

=== FILE: bytes.dfy ===
/**
 Bytes of the input buffer and the named ASCII constants the reader and the
 serializer compare against.

 The Hitch library names `{ }` "bracket" and `[ ]` "brace": the reader pairs
 `.openBracket` with dictionaries and `.openBrace` with arrays, and the
 serializer writes `.openBracket` around dictionaries. The constants below
 keep the library's names and give each its byte.
 */
module Bytes {

  newtype byte = x: int | 0 <= x < 256

  const Nul: byte := 0
  const Tab: byte := 9
  const NewLine: byte := 10
  const CarriageReturn: byte := 13
  const Space: byte := 32
  const DoubleQuote: byte := 34
  const SingleQuote: byte := 39
  const Comma: byte := 44
  const Dot: byte := 46
  const Colon: byte := 58
  const BackSlash: byte := 92
  /** `[` */
  const OpenBrace: byte := 91
  /** `]` */
  const CloseBrace: byte := 93
  /** `{` */
  const OpenBracket: byte := 123
  /** `}` */
  const CloseBracket: byte := 125

  const LetterA: byte := 97
  const LetterE: byte := 101
  const LetterF: byte := 102
  const LetterL: byte := 108
  const LetterN: byte := 110
  const LetterR: byte := 114
  const LetterS: byte := 115
  const LetterT: byte := 116
  const LetterU: byte := 117

  const NullText: seq<byte> := [LetterN, LetterU, LetterL, LetterL]
  const TrueText: seq<byte> := [LetterT, LetterR, LetterU, LetterE]
  const FalseText: seq<byte> := [LetterF, LetterA, LetterL, LetterS, LetterE]

  /**
   The byte at offset `i`, or NUL past the end. The Swift reader indexes its
   raw pointer at `count`, and in one case a little further on, as if a NUL
   stood there; these reads are out of bounds of the buffer it is given. This
   total accessor gives every such read the NUL the code assumes.
   */
  function At(s: seq<byte>, i: int): (b: byte)
    ensures 0 <= i < |s| ==> b == s[i]
    ensures (i < 0 || i >= |s|) ==> b == Nul
  {
    if 0 <= i < |s| then s[i] else Nul
  }

  /**
   The bytes `from ..< to` of `s`, clamped to the buffer: an empty span when
   `to <= from`, and only the bytes that exist otherwise.
   */
  function Slice(s: seq<byte>, from: int, to: int): (r: seq<byte>)
    ensures 0 <= from <= to <= |s| ==> r == s[from..to]
    ensures to <= from ==> r == []
    ensures |r| <= |s|
  {
    var lo := if from < 0 then 0 else if from > |s| then |s| else from;
    var hi := if to < lo then lo else if to > |s| then |s| else to;
    s[lo..hi]
  }

  /** The bytes the reader skips between values: space, tab, newline, CR and comma. */
  const SeparatorBytes: set<byte> := {Space, Tab, NewLine, CarriageReturn, Comma}
  /** Whitespace only, as skipped after a key's colon. */
  const WhitespaceBytes: set<byte> := {Space, Tab, NewLine, CarriageReturn}

  predicate IsQuote(b: byte) { b == SingleQuote || b == DoubleQuote }
  predicate IsOpen(b: byte) { b == OpenBracket || b == OpenBrace }
  predicate IsClose(b: byte) { b == CloseBracket || b == CloseBrace }

  /** The bytes that end a number token: whitespace, comma and either close byte. */
  predicate IsTokenEnd(b: byte)
  {
    b in WhitespaceBytes || b == Comma || IsClose(b)
  }
}

=== FILE: element.dfy ===
/**
 The value node of Spanker (`Spanker.JsonElement`) and the `JsonType` tag.

 The Swift class keeps a `type` tag and six optional payload fields; which of
 them is set is decided by the initializer used. The record below has the
 same shape, so a node whose tag and payload disagree (a `.string` node whose
 `valueString` is nil, say) is representable here as it is in Swift.
 Strings and keys are the bytes of the span they cover.
 */
module Element {
  import opened Wrappers
  import opened Bytes

  /** Swift's `Int` is 64 bits wide. */
  newtype int64 = x: int | -0x8000_0000_0000_0000 <= x < 0x8000_0000_0000_0000

  /** A Swift `Double`, kept as its IEEE 754 bit pattern and never interpreted. */
  datatype Float64 = Float64(bits: bv64)

  datatype JsonType = Null | Boolean | String | Int | Double | Array | Dictionary

  /**
   Swift's `[JsonElement]?`. A dedicated datatype rather than
   `Option<seq<JsonElement>>`, so that Dafny sees each child as smaller than
   its parent.
   */
  datatype ElementArray = NoElements | Elements(items: seq<JsonElement>)

  datatype JsonElement = JsonElement(
    kind: JsonType,
    valueString: Option<seq<byte>>,
    valueBool: Option<bool>,
    valueInt: Option<int64>,
    valueDouble: Option<Float64>,
    valueArray: ElementArray,
    keyArray: Option<seq<seq<byte>>>)
  {
    /** The number of payload fields that are set. */
    function PayloadCount(): nat
    {
      (if valueString.Some? then 1 else 0) + (if valueBool.Some? then 1 else 0)
      + (if valueInt.Some? then 1 else 0) + (if valueDouble.Some? then 1 else 0)
      + (if valueArray.Elements? then 1 else 0) + (if keyArray.Some? then 1 else 0)
    }

    /**
     The tag determines the payload: scalars carry exactly their own field,
     arrays exactly `valueArray`, dictionaries exactly `valueArray` and
     `keyArray`, null nothing.
     */
    predicate TagMatchesPayload()
    {
      match kind
      case Null => PayloadCount() == 0
      case Boolean => valueBool.Some? && PayloadCount() == 1
      case String => valueString.Some? && PayloadCount() == 1
      case Int => valueInt.Some? && PayloadCount() == 1
      case Double => valueDouble.Some? && PayloadCount() == 1
      case Array => valueArray.Elements? && PayloadCount() == 1
      case Dictionary => valueArray.Elements? && keyArray.Some? && PayloadCount() == 2
    }

    /** A node that is not a container and has no child slots at all. */
    predicate IsScalar()
    {
      kind != Array && kind != Dictionary && valueArray.NoElements? && keyArray.None?
    }
  }

  const NoPayload := JsonElement(Null, None, None, None, None, NoElements, None)

  /** `init()`: the null node. */
  function NullElement(): (r: JsonElement)
    ensures r.kind == Null && r.TagMatchesPayload() && r.IsScalar()
  {
    NoPayload
  }

  /** `init(string:)` */
  function StringElement(s: seq<byte>): (r: JsonElement)
    ensures r.kind == String && r.TagMatchesPayload() && r.IsScalar()
    ensures r.valueString == Some(s)
  {
    NoPayload.(kind := String, valueString := Some(s))
  }

  /** `init(bool:)` */
  function BoolElement(b: bool): (r: JsonElement)
    ensures r.kind == Boolean && r.TagMatchesPayload() && r.IsScalar()
    ensures r.valueBool == Some(b)
  {
    NoPayload.(kind := Boolean, valueBool := Some(b))
  }

  /** `init(int:)` */
  function IntElement(i: int64): (r: JsonElement)
    ensures r.kind == Int && r.TagMatchesPayload() && r.IsScalar()
    ensures r.valueInt == Some(i)
  {
    NoPayload.(kind := Int, valueInt := Some(i))
  }

  /** `init(double:)` */
  function DoubleElement(d: Float64): (r: JsonElement)
    ensures r.kind == Double && r.TagMatchesPayload() && r.IsScalar()
    ensures r.valueDouble == Some(d)
  {
    NoPayload.(kind := Double, valueDouble := Some(d))
  }

  /** `init(array:)` */
  function ArrayElement(a: seq<JsonElement>): (r: JsonElement)
    ensures r.kind == Array && r.TagMatchesPayload()
    ensures r.valueArray == Elements(a)
  {
    NoPayload.(kind := Array, valueArray := Elements(a))
  }

  /**
   `init(keys:values:)`. The Swift initializer does not store its
   arguments: every dictionary starts out empty whatever it is given.
   */
  function DictionaryElement(keys: seq<seq<byte>>, values: seq<JsonElement>): (r: JsonElement)
    ensures r.kind == Dictionary && r.TagMatchesPayload()
    ensures r.keyArray == Some([]) && r.valueArray == Elements([])
  {
    NoPayload.(kind := Dictionary, valueArray := Elements([]), keyArray := Some([]))
  }

  /**
   `append(value:)`: adds `v` to the child slots when there are any, and
   leaves the node alone when `valueArray` is nil. The tag is not consulted.
   */
  function AppendValue(e: JsonElement, v: JsonElement): (r: JsonElement)
    ensures r.kind == e.kind && r.keyArray == e.keyArray
    ensures e.valueArray.NoElements? ==> r == e
    ensures e.valueArray.Elements? ==> r.valueArray == Elements(e.valueArray.items + [v])
    ensures r.valueString == e.valueString && r.valueBool == e.valueBool
    ensures r.valueInt == e.valueInt && r.valueDouble == e.valueDouble
  {
    match e.valueArray
    case NoElements => e
    case Elements(vs) => e.(valueArray := Elements(vs + [v]))
  }

  /**
   `append(key:value:)`: adds `k` to the keys when there are keys and `v` to
   the child slots when there are child slots, each independently.
   */
  function AppendKeyValue(e: JsonElement, k: seq<byte>, v: JsonElement): (r: JsonElement)
    ensures r.kind == e.kind
    ensures e.valueArray.NoElements? ==> r.valueArray == NoElements
    ensures e.valueArray.Elements? ==> r.valueArray == Elements(e.valueArray.items + [v])
    ensures e.keyArray.None? ==> r.keyArray == None
    ensures e.keyArray.Some? ==> r.keyArray == Some(e.keyArray.value + [k])
    ensures r.valueString == e.valueString && r.valueBool == e.valueBool
    ensures r.valueInt == e.valueInt && r.valueDouble == e.valueDouble
  {
    var withKey := match e.keyArray
      case None => e
      case Some(ks) => e.(keyArray := Some(ks + [k]));
    AppendValue(withKey, v)
  }

  /** Appending anything to a scalar, keyed or not, leaves it unchanged. */
  lemma AppendToScalarIsNoOp(e: JsonElement, k: seq<byte>, v: JsonElement)
    requires e.IsScalar()
    ensures AppendValue(e, v) == e
    ensures AppendKeyValue(e, k, v) == e
  {
  }

  /** A dictionary that came out of `DictionaryElement` keeps its keys and values the same length under `AppendKeyValue`. */
  lemma AppendKeyValueKeepsPairs(e: JsonElement, k: seq<byte>, v: JsonElement)
    requires e.kind == Dictionary && e.TagMatchesPayload()
    requires |e.keyArray.value| == |e.valueArray.items|
    ensures var r := AppendKeyValue(e, k, v);
      r.TagMatchesPayload() && |r.keyArray.value| == |r.valueArray.items| == |e.keyArray.value| + 1
  {
  }

  /**
   The shape the serializer needs to run without trapping: a dictionary with
   both arrays has at least as many values as keys, and every child the
   serializer visits is itself serializable.
   */
  predicate Serializable(e: JsonElement)
  {
    match e.valueArray
    case NoElements => true
    case Elements(vs) =>
      match e.kind
      case Array => forall i :: 0 <= i < |vs| ==> Serializable(vs[i])
      case Dictionary =>
        e.keyArray.Some? ==>
          && |e.keyArray.value| <= |vs|
          && forall i :: 0 <= i < |e.keyArray.value| ==> Serializable(vs[i])
      case _ => true
  }

  /**
   The shape every node the reader builds has: its tag matches its payload,
   a dictionary never has more keys than values, and all child slots hold
   well-formed nodes. Stronger than `Serializable`, which looks only at the
   children the serializer visits.
   */
  predicate WellFormed(e: JsonElement)
  {
    && e.TagMatchesPayload()
    && (e.kind == Dictionary ==> |e.keyArray.value| <= |e.valueArray.items|)
    && match e.valueArray
       case NoElements => true
       case Elements(vs) => forall i :: 0 <= i < |vs| ==> WellFormed(vs[i])
  }

  lemma {:induction false} WellFormedIsSerializable(e: JsonElement)
    requires WellFormed(e)
    ensures Serializable(e)
    decreases e
  {
    match e.valueArray
    case NoElements =>
    case Elements(vs) =>
      forall i | 0 <= i < |vs| ensures Serializable(vs[i]) {
        WellFormedIsSerializable(vs[i]);
      }
  }

  /** Every initializer builds a well-formed node: an array one when its children are well formed. */
  lemma InitializersAreWellFormed(s: seq<byte>, b: bool, n: int64, d: Float64,
                                  a: seq<JsonElement>, ks: seq<seq<byte>>, vs: seq<JsonElement>)
    ensures WellFormed(NullElement()) && WellFormed(StringElement(s)) && WellFormed(BoolElement(b))
    ensures WellFormed(IntElement(n)) && WellFormed(DoubleElement(d))
    ensures (forall i :: 0 <= i < |a| ==> WellFormed(a[i])) ==> WellFormed(ArrayElement(a))
    ensures WellFormed(DictionaryElement(ks, vs))
  {
  }

  /** Appending a well-formed node, keyed or not, keeps a node well formed. */
  lemma AppendKeepsWellFormed(e: JsonElement, k: seq<byte>, v: JsonElement)
    requires WellFormed(e) && WellFormed(v)
    ensures WellFormed(AppendValue(e, v))
    ensures WellFormed(AppendKeyValue(e, k, v))
  {
    var a := AppendValue(e, v);
    if a.valueArray.Elements? {
      forall i | 0 <= i < |a.valueArray.items| ensures WellFormed(a.valueArray.items[i]) {
        if i < |e.valueArray.items| { assert a.valueArray.items[i] == e.valueArray.items[i]; }
      }
    }
    var b := AppendKeyValue(e, k, v);
    if b.valueArray.Elements? {
      forall i | 0 <= i < |b.valueArray.items| ensures WellFormed(b.valueArray.items[i]) {
        if i < |e.valueArray.items| { assert b.valueArray.items[i] == e.valueArray.items[i]; }
      }
    }
  }
}

=== FILE: reader.dfy ===
/**
 The single-pass reader `Spanker.Reader.parsed(data:)`.

 The Swift reader keeps a cursor, a stack of open containers, a "current
 element", a root and a `ParseValue` record, and links each new container
 into its parent by reference the moment it is opened. Here the tree is
 immutable: each stack frame holds its partially built container together
 with how it will be attached to the frame below (under a key, as a plain
 value, or not at all), decided when it is opened, and a frame is folded
 into the frame below when it is popped. The current element is the node of
 the top frame when the stack is not empty, and otherwise the `loose`
 scalar (or nothing); that is the shape the Swift reader keeps as well, so
 every append lands in the same node as it does there.

 One loop iteration is the function `Step`; `Run` iterates it and `Drain`
 is the final loop that closes whatever is still open. `Parsed` is the
 method with the two `while` loops.
 */
module Reader {
  import opened Wrappers
  import opened Bytes
  import opened Element
  import opened Scanner

  /** The Hitch conversions `toInt()` and `toDouble()`, which are not part of this model. */
  datatype Numbers = Numbers(toInt: seq<byte> -> Option<int64>, toDouble: seq<byte> -> Option<Float64>)

  /**
   `Spanker.ValueType`: the kind of value the reader has detected so far,
   limited to the cases the reader assigns; `.null` and `.element` are
   declared in Swift but never written.
   */
  datatype ValueType = Unknown | StringValue | BooleanTrue | BooleanFalse | IntValue | DoubleValue

  /** `Spanker.ParseValue`: the pending key span and the start of the pending value. */
  datatype ParseValue = ParseValue(vtype: ValueType, nameIdx: nat, endNameIdx: nat, valueIdx: nat)

  const EmptyAttribute := ParseValue(Unknown, 0, 0, 0)

  /** `ParseValue.clear()`: forgets the kind, the key start and the value start, but not the key end. */
  function Clear(a: ParseValue): (r: ParseValue)
    ensures r.vtype == Unknown && r.nameIdx == 0 && r.valueIdx == 0
    ensures r.endNameIdx == a.endNameIdx
  {
    a.(vtype := Unknown, nameIdx := 0, valueIdx := 0)
  }

  /** How a container is linked into the container below it on the stack. */
  datatype Attachment = Keyed(key: seq<byte>) | Unkeyed | Detached

  datatype Frame = Frame(node: JsonElement, attach: Attachment)

  datatype State = State(
    idx: nat,
    stack: seq<Frame>,
    attr: ParseValue,
    root: Option<JsonElement>,
    loose: Option<JsonElement>)
  {
    /** `jsonElement`, the element values are appended to. */
    function Current(): Option<JsonElement>
    {
      if |stack| > 0 then Some(stack[|stack| - 1].node) else loose
    }

    /** The state with the node of the top frame replaced. */
    function WithTop(node: JsonElement): State
      requires |stack| > 0
    {
      this.(stack := stack[..|stack| - 1] + [Frame(node, stack[|stack| - 1].attach)])
    }
  }

  const Start := State(0, [], EmptyAttribute, None, None)

  /** `attributeName`: the pending key span, when one with at least one byte was captured. */
  function AttributeName(data: seq<byte>, a: ParseValue): (r: Option<seq<byte>>)
    ensures r.Some? <==> 0 < a.nameIdx < a.endNameIdx
    ensures r.Some? && a.endNameIdx <= |data| ==> r.value == data[a.nameIdx..a.endNameIdx]
  {
    if a.nameIdx > 0 && a.endNameIdx > a.nameIdx then Some(Slice(data, a.nameIdx, a.endNameIdx)) else None
  }

  /** After `clear()` there is no pending name, and clearing again changes nothing. */
  lemma ClearForgetsName(data: seq<byte>, a: ParseValue)
    ensures AttributeName(data, Clear(a)).None?
    ensures Clear(Clear(a)) == Clear(a)
  { }

  /** What linking the popped container `child` into `parent` does, by the attachment chosen at open time. */
  function Fold(parent: JsonElement, child: Frame): (r: JsonElement)
    ensures r.kind == parent.kind
    ensures child.attach.Detached? || parent.valueArray.NoElements? ==> r.valueArray == parent.valueArray
    ensures !child.attach.Detached? && parent.valueArray.Elements? ==>
      r.valueArray == Elements(parent.valueArray.items + [child.node])
    ensures !child.attach.Keyed? || parent.keyArray.None? ==> r.keyArray == parent.keyArray
    ensures child.attach.Keyed? && parent.keyArray.Some? ==>
      r.keyArray == Some(parent.keyArray.value + [child.attach.key])
    ensures child.attach.Detached? ==> r == parent
    ensures r.valueString == parent.valueString && r.valueBool == parent.valueBool
    ensures r.valueInt == parent.valueInt && r.valueDouble == parent.valueDouble
  {
    match child.attach
    case Keyed(k) => AppendKeyValue(parent, k, child.node)
    case Unkeyed => AppendValue(parent, child.node)
    case Detached => parent
  }

  /**
   `parseEndElement` together with the assignment of its result to
   `jsonElement`. On an empty stack nothing but the current element changes
   (it becomes nil). Otherwise exactly one frame is popped: it becomes the
   root when the stack is then empty, and is linked into the new top
   otherwise, which becomes the current element.
   */
  function EndElement(st: State): (r: State)
    ensures r.idx == st.idx && r.attr == st.attr
    ensures |st.stack| == 0 ==> r.stack == [] && r.root == st.root && r.Current() == None
    ensures |st.stack| > 0 ==> |r.stack| == |st.stack| - 1 && r.loose == None
    ensures |st.stack| == 1 ==> r.root == Some(st.stack[0].node)
    ensures |st.stack| > 1 ==> r.root == st.root
    ensures |st.stack| > 1 ==>
      var n := |st.stack|;
      && r.stack[n - 2] == Frame(Fold(st.stack[n - 2].node, st.stack[n - 1]), st.stack[n - 2].attach)
      && r.stack[..n - 2] == st.stack[..n - 2]
  {
    var n := |st.stack|;
    if n == 0 then st.(loose := None)
    else if n == 1 then st.(stack := [], root := Some(st.stack[0].node), loose := None)
    else
      var top := st.stack[n - 1];
      var below := st.stack[n - 2];
      st.(stack := st.stack[..n - 2] + [Frame(Fold(below.node, top), below.attach)], loose := None)
  }

  /**
   `appendElement`: an array takes the value whatever the key, a dictionary
   takes it only under a key, anything else drops it; with no current
   element the value becomes both the root and the current element.
   */
  function AppendElement(st: State, key: Option<seq<byte>>, value: JsonElement): (r: State)
    ensures r.idx == st.idx && r.attr == st.attr && |r.stack| == |st.stack|
    ensures |st.stack| > 0 ==> r.stack[..|st.stack| - 1] == st.stack[..|st.stack| - 1]
    ensures |st.stack| > 0 ==> r.stack[|st.stack| - 1].attach == st.stack[|st.stack| - 1].attach
    ensures |st.stack| > 0 ==> r.root == st.root && r.loose == st.loose
    ensures st.Current().None? ==> r.root == Some(value) && r.Current() == Some(value)
    ensures st.Current().Some? ==> r.Current().Some?
    ensures st.Current().Some? && st.Current().value.kind == Array ==>
      r.Current().value == AppendValue(st.Current().value, value)
    ensures st.Current().Some? && st.Current().value.kind == Dictionary && key.Some? ==>
      r.Current().value == AppendKeyValue(st.Current().value, key.value, value)
    ensures (st.Current().Some? && st.Current().value.kind != Array
             && !(st.Current().value.kind == Dictionary && key.Some?)) ==> r == st
  {
    match st.Current()
    case None => st.(root := Some(value), loose := Some(value))
    case Some(cur) =>
      if cur.kind != Array && !(cur.kind == Dictionary && key.Some?) then st
      else
        var grown := if cur.kind == Array then AppendValue(cur, value) else AppendKeyValue(cur, key.value, value);
        if |st.stack| > 0 then st.WithTop(grown)
        // with an empty stack the current element is the root itself
        else st.(root := Some(grown), loose := Some(grown))
  }

  /**
   An open byte at `c`: a new empty dictionary for `{`, array for `[`,
   pushed on the stack. With a current element, the pending key (if any)
   decides how it is linked to it and the pending attribute is cleared.
   */
  function Open(data: seq<byte>, st: State, c: nat): (r: State)
    requires c < |data| && IsOpen(data[c])
    ensures r.idx == c + 1 && |r.stack| == |st.stack| + 1 && r.stack[..|st.stack|] == st.stack
    ensures r.root == st.root && r.loose == None
    ensures r.Current() == Some(if data[c] == OpenBracket then DictionaryElement([], []) else ArrayElement([]))
    ensures |st.stack| > 0 ==>
      r.stack[|st.stack|].attach == (match AttributeName(data, st.attr) case Some(k) => Keyed(k) case None => Unkeyed)
    ensures |st.stack| == 0 ==> r.stack[0].attach == Detached
    ensures r.attr == if st.Current().Some? then Clear(st.attr) else st.attr
  {
    var next := if data[c] == OpenBracket then DictionaryElement([], []) else ArrayElement([]);
    var attach :=
      if |st.stack| == 0 then Detached
      else match AttributeName(data, st.attr) case Some(k) => Keyed(k) case None => Unkeyed;
    var attr := if st.Current().Some? then Clear(st.attr) else st.attr;
    st.(idx := c + 1, stack := st.stack + [Frame(next, attach)], attr := attr, loose := None)
  }

  /** Where the number scan stopped, what it found, and the byte the Swift loop last read. */
  datatype Token = Token(end: nat, vtype: ValueType, last: byte)

  predicate IsNumberType(t: ValueType) { t == IntValue || t == DoubleValue }

  /** Whether the literal `lit` starts at `i` with room for it before the end, as the Swift guards test. */
  predicate LiteralAt(data: seq<byte>, i: int, lit: seq<byte>)
  {
    0 <= i < |data| - (|lit| - 1) && data[i..i + |lit|] == lit
  }

  /**
   The number loop: scan while the byte is not whitespace, a comma or a
   close byte. `false` or `true` met anywhere in it ends the scan as a
   boolean; a `.` turns an int into a double.
   */
  function ScanToken(data: seq<byte>, i: nat, t: ValueType): (r: Token)
    requires IsNumberType(t)
    ensures i <= r.end
    ensures i <= |data| ==> r.end <= |data|
    ensures i < |data| && !IsTokenEnd(data[i]) ==> i < r.end
    ensures IsNumberType(r.vtype) || r.vtype == BooleanTrue || r.vtype == BooleanFalse
    ensures forall j :: i <= j < r.end && IsNumberType(r.vtype) ==> !IsTokenEnd(At(data, j))
    ensures IsNumberType(r.vtype) ==>
      && r.last == At(data, r.end)
      && (r.end >= |data| || IsTokenEnd(data[r.end]))
      && (r.vtype == DoubleValue <==> (t == DoubleValue || exists j :: i <= j < r.end && At(data, j) == Dot))
    ensures r.vtype == BooleanTrue ==> i + 4 <= r.end && LiteralAt(data, r.end - 4, TrueText) && r.last == LetterT
    ensures r.vtype == BooleanFalse ==> i + 5 <= r.end && LiteralAt(data, r.end - 5, FalseText) && r.last == LetterF
    decreases |data| - i
  {
    var ch := At(data, i);
    if i < |data| && !IsTokenEnd(ch) then
      if LiteralAt(data, i, FalseText) then
        Token(i + 5, BooleanFalse, ch)
      else if LiteralAt(data, i, TrueText) then
        Token(i + 4, BooleanTrue, ch)
      else
        ScanToken(data, i + 1, if ch == Dot then DoubleValue else t)
    else
      Token(i, t, ch)
  }

  /** The start of the literal a boolean token ends with, or the token's end for a number. */
  function LiteralStart(tok: Token): int
  {
    if tok.vtype == BooleanTrue then tok.end - 4 else if tok.vtype == BooleanFalse then tok.end - 5 else tok.end
  }

  /**
   The scan takes the first literal it meets: no `true` or `false` starts
   inside a number token, and before the literal a boolean token ends with
   there is none either, nor any byte that ends a token. At one position
   `false` is tried before `true`.
   */
  lemma {:induction false} ScanTokenTakesFirstLiteral(data: seq<byte>, i: nat, t: ValueType)
    requires IsNumberType(t)
    ensures var r := ScanToken(data, i, t);
      && (forall j :: i <= j < LiteralStart(r) ==>
            !IsTokenEnd(At(data, j)) && !LiteralAt(data, j, FalseText) && !LiteralAt(data, j, TrueText))
      && (IsNumberType(r.vtype) ==> LiteralStart(r) == r.end)
      && (r.vtype == BooleanTrue ==> !LiteralAt(data, r.end - 4, FalseText))
    decreases |data| - i
  {
    var ch := At(data, i);
    if i < |data| && !IsTokenEnd(ch) && !LiteralAt(data, i, FalseText) && !LiteralAt(data, i, TrueText) {
      ScanTokenTakesFirstLiteral(data, i + 1, if ch == Dot then DoubleValue else t);
    }
  }

  /** `attributeAsInt`: the span as an int node, or a null node when it does not convert. */
  function AsInt(numbers: Numbers, span: seq<byte>): (r: JsonElement)
    ensures numbers.toInt(span).Some? ==> r == IntElement(numbers.toInt(span).value)
    ensures numbers.toInt(span).None? ==> r == NullElement()
  {
    match numbers.toInt(span)
    case Some(v) => IntElement(v)
    case None => NullElement()
  }

  /** `attributeAsDouble`: the span as a double node, or a null node when it does not convert. */
  function AsDouble(numbers: Numbers, span: seq<byte>): (r: JsonElement)
    ensures numbers.toDouble(span).Some? ==> r == DoubleElement(numbers.toDouble(span).value)
    ensures numbers.toDouble(span).None? ==> r == NullElement()
  {
    match numbers.toDouble(span)
    case Some(v) => DoubleElement(v)
    case None => NullElement()
  }

  /** The node the number loop's outcome stands for; none for a kind it never ends with. */
  function TokenElement(numbers: Numbers, data: seq<byte>, valueIdx: nat, tok: Token): (r: Option<JsonElement>)
    ensures r.Some? <==> IsNumberType(tok.vtype) || tok.vtype == BooleanTrue || tok.vtype == BooleanFalse
    ensures r.Some? ==> r.value.IsScalar() && r.value.TagMatchesPayload()
    ensures tok.vtype == BooleanTrue ==> r.value.kind == Boolean && r.value.valueBool == Some(true)
    ensures tok.vtype == BooleanFalse ==> r.value.kind == Boolean && r.value.valueBool == Some(false)
    ensures tok.vtype == IntValue ==>
      var n := numbers.toInt(Slice(data, valueIdx, tok.end));
      (r.value.kind == Int <==> n.Some?) && (n.Some? ==> r.value.valueInt == n) && (n.None? ==> r.value.kind == Null)
    ensures tok.vtype == DoubleValue ==>
      var d := numbers.toDouble(Slice(data, valueIdx, tok.end));
      (r.value.kind == Double <==> d.Some?) && (d.Some? ==> r.value.valueDouble == d) && (d.None? ==> r.value.kind == Null)
  {
    match tok.vtype
    case BooleanTrue => Some(BoolElement(true))
    case BooleanFalse => Some(BoolElement(false))
    case IntValue => Some(AsInt(numbers, Slice(data, valueIdx, tok.end)))
    case DoubleValue => Some(AsDouble(numbers, Slice(data, valueIdx, tok.end)))
    case _ => None
  }

  /**
   The value that starts at `n`, appended under `key`: a quoted string up to
   the next occurrence of its own quote byte, `null`, a deferred container,
   or a number/boolean token. A number ended by `]` also closes the
   current container, while the cursor stays on the `]`.
   */
  function ParseValueAt(data: seq<byte>, numbers: Numbers, st: State, key: Option<seq<byte>>, n: nat): (r: State)
    ensures n <= r.idx
    ensures n < |data| && !IsOpen(data[n]) && !IsTokenEnd(data[n]) ==> n < r.idx
    ensures IsOpen(At(data, n)) ==> r == st.(idx := n)
  {
    var nextChar := At(data, n);
    if IsQuote(nextChar) then
      var valueIdx := n + 1;
      var e := StrstrNoEscaped(data, valueIdx, nextChar);
      var st1 := AppendElement(st.(attr := st.attr.(vtype := StringValue, valueIdx := valueIdx)),
                               key, StringElement(Slice(data, valueIdx, e)));
      st1.(attr := Clear(st1.attr), idx := e + 1)
    else if IsOpen(nextChar) then
      st.(idx := n)
    else if LiteralAt(data, n, NullText) then
      var st1 := AppendElement(st, key, NullElement());
      st1.(attr := Clear(st1.attr), idx := n + 4)
    else
      var tok := ScanToken(data, n, IntValue);
      var st0 := st.(attr := st.attr.(vtype := tok.vtype, valueIdx := n));
      var st1 := match TokenElement(numbers, data, n, tok)
        case Some(v) => AppendElement(st0, key, v)
        case None => st0;
      var st2 := st1.(attr := Clear(st1.attr));
      var st3 := if tok.last == CloseBrace then EndElement(st2) else st2;
      st3.(idx := tok.end)
  }

  /** Where the next iteration classifies: the cursor after skipping separators. */
  function Cursor(data: seq<byte>, st: State): (c: nat)
    ensures st.idx <= c
    ensures st.idx <= |data| ==> c <= |data|
    ensures forall j :: st.idx <= j < c ==> At(data, j) != Nul && At(data, j) in SeparatorBytes
    ensures c < |data| ==> data[c] == Nul || data[c] !in SeparatorBytes
  {
    StrSkip(data, st.idx, SeparatorBytes)
  }

  /** Whether the current element is a dictionary. */
  predicate InDictionary(st: State)
  {
    st.Current().Some? && st.Current().value.kind == Dictionary
  }

  /** Where a key that opens at `c` ends, where the colon search stopped, and where its value starts. */
  datatype KeyScan = KeyScan(endName: nat, colon: nat, valueStart: nat)

  /**
   The key runs from after the quote at `c` to the next occurrence of the
   same quote byte; the colon search starts one past that quote and stops at
   the first colon, NUL or the end; the value starts after the colon and any
   whitespace.
   */
  function ScanKey(data: seq<byte>, c: nat): (k: KeyScan)
    requires c < |data|
    ensures c + 1 <= k.endName <= |data|
    ensures k.endName == StrstrNoEscaped(data, c + 1, data[c])
    ensures forall j :: c + 1 <= j < k.endName ==> At(data, j) != data[c] && At(data, j) != Nul
    ensures k.endName < |data| ==> data[k.endName] == data[c] || data[k.endName] == Nul
    ensures k.endName < k.colon < k.valueStart
    ensures k.colon <= |data| + 1
    ensures forall j :: k.endName < j < k.colon ==> At(data, j) != Colon && At(data, j) != Nul
    ensures k.colon < |data| ==> data[k.colon] == Colon || data[k.colon] == Nul
    ensures forall j :: k.colon < j < k.valueStart ==> At(data, j) in WhitespaceBytes
    ensures k.valueStart < |data| ==> data[k.valueStart] == Nul || data[k.valueStart] !in WhitespaceBytes
    ensures k.colon >= |data| ==> k.valueStart == k.colon + 1
  {
    var endName := StrstrNoEscaped(data, c + 1, data[c]);
    var colon := StrstrNoEscaped(data, endName + 1, Colon);
    KeyScan(endName, colon, StrSkip(data, colon + 1, WhitespaceBytes))
  }

  /**
   A quote while a dictionary is current: the first one of an entry starts
   its key, and the value after it is parsed and appended under that key.
   An empty key leaves the cursor where it is with the key start recorded,
   so that the next iteration steps over the quote.
   */
  function KeyStep(data: seq<byte>, numbers: Numbers, st: State, c: nat): (r: State)
    requires c < |data| && IsQuote(data[c])
    ensures c < r.idx || (r.idx == c && st.attr.nameIdx == 0 && r.attr.nameIdx > 0)
  {
    if st.attr.nameIdx == 0 then
      var k := ScanKey(data, c);
      var attr := st.attr.(nameIdx := c + 1, endNameIdx := k.endName);
      var key := AttributeName(data, attr);
      if key.None? then st.(idx := c, attr := attr)
      else ParseValueAt(data, numbers, st.(attr := attr), key, k.valueStart)
    else
      st.(idx := c + 1)
  }

  /** Any other byte: the start of a value in an array, at the top level, or somewhere else it is dropped. */
  function ValueStep(data: seq<byte>, numbers: Numbers, st: State, c: nat): (r: State)
    requires c < |data| && !IsOpen(data[c]) && !IsClose(data[c])
    requires data[c] == Nul || data[c] !in SeparatorBytes
    ensures c < r.idx
  {
    var n := StrSkip(data, c, WhitespaceBytes);
    assert n == c;
    ParseValueAt(data, numbers, st, None, n)
  }

  /** One iteration of the main loop, for a cursor that has not reached the end. */
  function Step(data: seq<byte>, numbers: Numbers, st: State): (r: State)
    requires Cursor(data, st) < |data|
    ensures var c := Cursor(data, st);
      c < r.idx || (r.idx == c && st.attr.nameIdx == 0 && r.attr.nameIdx > 0)
  {
    var c := Cursor(data, st);
    var ch := data[c];
    if IsClose(ch) then EndElement(st).(idx := c + 1)
    else if IsOpen(ch) then Open(data, st, c)
    else if InDictionary(st) && IsQuote(ch) then KeyStep(data, numbers, st, c)
    else ValueStep(data, numbers, st, c)
  }

  /** The offsets left to scan from `idx`. */
  function Remaining(data: seq<byte>, idx: nat): nat
  {
    if idx < |data| then |data| - idx else 0
  }

  /** The main loop, up to the point where the cursor reaches the end of the buffer. */
  function Run(data: seq<byte>, numbers: Numbers, st: State): (r: State)
    ensures Cursor(data, r) >= |data|
    decreases Remaining(data, st.idx), if st.attr.nameIdx == 0 then 1 else 0
  {
    if Cursor(data, st) >= |data| then st
    else Run(data, numbers, Step(data, numbers, st))
  }

  /** The final loop: pop until the stack is empty. */
  function Drain(st: State): (r: State)
    ensures r.stack == []
    ensures |st.stack| > 0 ==> r.root.Some?
    ensures |st.stack| == 0 ==> r == st.(loose := r.loose) && r.root == st.root
    decreases |st.stack|
  {
    if |st.stack| > 0 then Drain(EndElement(st)) else st
  }

  /** `parsed(data:)`: the root handed to the callback. */
  function Parse(data: seq<byte>, numbers: Numbers): Option<JsonElement>
  {
    Drain(Run(data, numbers, Start)).root
  }
}

=== FILE: reader_loop.dfy ===
/**
 `Reader.parsed(data:)` as the Swift code runs it: a `while true` loop that
 skips separators, stops at the end of the buffer and otherwise performs one
 iteration, followed by the loop that closes every container still open.
 The callback receives the root; here the method returns it.
 */
module ReaderLoop {
  import opened Wrappers
  import opened Bytes
  import opened Element
  import opened Scanner
  import opened Reader
  import opened ReaderProofs
  import opened ReaderRoot

  method Parsed(data: seq<byte>, numbers: Numbers) returns (root: Option<JsonElement>)
    ensures root == Parse(data, numbers)
    ensures root.Some? ==> WellFormed(root.value) && Serializable(root.value)
    ensures root.None? <==> forall i :: 0 <= i < |data| ==> data[i] in SeparatorBytes || IsClose(data[i])
  {
    var st := Start;
    StartSatisfiesInv();
    while true
      invariant Inv(st)
      invariant Run(data, numbers, st) == Run(data, numbers, Start)
      decreases Remaining(data, st.idx), if st.attr.nameIdx == 0 then 1 else 0
    {
      var currentIdx := StrSkip(data, st.idx, SeparatorBytes);
      if currentIdx >= |data| {
        break;
      }
      StepKeepsInv(data, numbers, st);
      st := Step(data, numbers, st);
    }
    while |st.stack| > 0
      invariant Inv(st)
      invariant Drain(st) == Drain(Run(data, numbers, Start))
      decreases |st.stack|
    {
      EndElementKeepsInv(st);
      st := EndElement(st);
    }
    root := st.root;
    if root.Some? {
      WellFormedIsSerializable(root.value);
    }
    NoRootIffOnlyClosers(data, numbers);
  }
}

=== FILE: reader_proofs.dfy ===
/**
 Properties of the reader: the invariant its main loop keeps, the trees it
 produces, when it produces no root at all, and what single iterations do
 to the current element.
 */
module ReaderProofs {
  import opened Wrappers
  import opened Bytes
  import opened Element
  import opened Scanner
  import opened Reader

  /**
   The main loop's invariant. While containers are open the current element
   is the top of the stack; with the stack empty it is nothing or a scalar
   that is also the root, so appends to it change nothing. Every node held
   is well formed.
   */
  predicate Inv(st: State)
  {
    && (|st.stack| > 0 ==> st.loose == None)
    && (st.loose.Some? ==> st.loose.value.IsScalar() && st.root == st.loose)
    && (forall i :: 0 <= i < |st.stack| ==> WellFormed(st.stack[i].node))
    && (st.root.Some? ==> WellFormed(st.root.value))
  }

  lemma StartSatisfiesInv()
    ensures Inv(Start)
  {
  }

  lemma FoldKeepsWellFormed(parent: JsonElement, child: Frame)
    requires WellFormed(parent) && WellFormed(child.node)
    ensures WellFormed(Fold(parent, child))
  {
    match child.attach
    case Keyed(k) => AppendKeepsWellFormed(parent, k, child.node);
    case Unkeyed => AppendKeepsWellFormed(parent, [], child.node);
    case Detached =>
  }

  lemma EndElementKeepsInv(st: State)
    requires Inv(st)
    ensures Inv(EndElement(st))
  {
    var n := |st.stack|;
    if n > 1 {
      FoldKeepsWellFormed(st.stack[n - 2].node, st.stack[n - 1]);
      var r := EndElement(st);
      forall i | 0 <= i < |r.stack| ensures WellFormed(r.stack[i].node) {
        if i < n - 2 { assert r.stack[i] == r.stack[..n - 2][i] == st.stack[i]; }
      }
    }
  }

  /** With the stack empty, appending to the current element never changes it: it is nothing or a scalar. */
  lemma AppendWithEmptyStack(st: State, key: Option<seq<byte>>, value: JsonElement)
    requires Inv(st) && |st.stack| == 0 && st.loose.Some?
    ensures AppendElement(st, key, value) == st
  {
    AppendToScalarIsNoOp(st.loose.value, if key.Some? then key.value else [], value);
  }

  lemma AppendElementKeepsInv(st: State, key: Option<seq<byte>>, value: JsonElement)
    requires Inv(st) && value.IsScalar() && WellFormed(value)
    ensures Inv(AppendElement(st, key, value))
  {
    var r := AppendElement(st, key, value);
    if |st.stack| > 0 {
      var n := |st.stack|;
      var cur := st.stack[n - 1].node;
      AppendKeepsWellFormed(cur, if key.Some? then key.value else [], value);
      forall i | 0 <= i < n ensures WellFormed(r.stack[i].node) {
        if i < n - 1 { assert r.stack[i] == r.stack[..n - 1][i] == st.stack[i]; }
      }
    } else if st.loose.Some? {
      AppendWithEmptyStack(st, key, value);
    }
  }

  lemma OpenKeepsInv(data: seq<byte>, st: State, c: nat)
    requires Inv(st) && c < |data| && IsOpen(data[c])
    ensures Inv(Open(data, st, c))
  {
    var r := Open(data, st, c);
    forall i | 0 <= i < |r.stack| ensures WellFormed(r.stack[i].node) {
      if i < |st.stack| { assert r.stack[i] == r.stack[..|st.stack|][i] == st.stack[i]; }
      else { InitializersAreWellFormed([], true, 0, Float64(0), [], [], []); }
    }
  }

  /** Every node the value parser can append is a well-formed scalar. */
  lemma TokenElementIsScalar(numbers: Numbers, data: seq<byte>, valueIdx: nat, tok: Token)
    ensures TokenElement(numbers, data, valueIdx, tok).Some? ==>
      var v := TokenElement(numbers, data, valueIdx, tok).value;
      v.IsScalar() && WellFormed(v)
  {
  }

  lemma ParseValueAtKeepsInv(data: seq<byte>, numbers: Numbers, st: State, key: Option<seq<byte>>, n: nat)
    requires Inv(st)
    ensures Inv(ParseValueAt(data, numbers, st, key, n))
  {
    var nextChar := At(data, n);
    if IsQuote(nextChar) {
      var valueIdx := n + 1;
      var e := StrstrNoEscaped(data, valueIdx, nextChar);
      AppendElementKeepsInv(st.(attr := st.attr.(vtype := StringValue, valueIdx := valueIdx)),
                            key, StringElement(Slice(data, valueIdx, e)));
    } else if IsOpen(nextChar) {
    } else if LiteralAt(data, n, NullText) {
      AppendElementKeepsInv(st, key, NullElement());
    } else {
      TokenValueKeepsInv(data, numbers, st, key, n);
    }
  }

  /** The number branch of the value parser keeps the invariant. */
  lemma TokenValueKeepsInv(data: seq<byte>, numbers: Numbers, st: State, key: Option<seq<byte>>, n: nat)
    requires Inv(st)
    requires !IsQuote(At(data, n)) && !IsOpen(At(data, n)) && !LiteralAt(data, n, NullText)
    ensures Inv(ParseValueAt(data, numbers, st, key, n))
  {
    var tok := ScanToken(data, n, IntValue);
    var st0 := st.(attr := st.attr.(vtype := tok.vtype, valueIdx := n));
    TokenElementIsScalar(numbers, data, n, tok);
    var st1 := match TokenElement(numbers, data, n, tok)
      case Some(v) => AppendElement(st0, key, v)
      case None => st0;
    if TokenElement(numbers, data, n, tok).Some? {
      AppendElementKeepsInv(st0, key, TokenElement(numbers, data, n, tok).value);
    }
    var st2 := st1.(attr := Clear(st1.attr));
    EndElementKeepsInv(st2);
  }

  lemma KeyStepKeepsInv(data: seq<byte>, numbers: Numbers, st: State, c: nat)
    requires Inv(st) && c < |data| && IsQuote(data[c])
    ensures Inv(KeyStep(data, numbers, st, c))
  {
    if st.attr.nameIdx == 0 {
      var k := ScanKey(data, c);
      var attr := st.attr.(nameIdx := c + 1, endNameIdx := k.endName);
      ParseValueAtKeepsInv(data, numbers, st.(attr := attr), AttributeName(data, attr), k.valueStart);
    }
  }

  lemma ValueStepKeepsInv(data: seq<byte>, numbers: Numbers, st: State, c: nat)
    requires Inv(st) && c < |data| && !IsOpen(data[c]) && !IsClose(data[c])
    requires data[c] == Nul || data[c] !in SeparatorBytes
    ensures Inv(ValueStep(data, numbers, st, c))
  {
    ParseValueAtKeepsInv(data, numbers, st, None, StrSkip(data, c, WhitespaceBytes));
  }

  lemma StepKeepsInv(data: seq<byte>, numbers: Numbers, st: State)
    requires Inv(st) && Cursor(data, st) < |data|
    ensures Inv(Step(data, numbers, st))
  {
    var c := Cursor(data, st);
    var ch := data[c];
    if IsClose(ch) {
      EndElementKeepsInv(st);
    } else if IsOpen(ch) {
      OpenKeepsInv(data, st, c);
    } else if InDictionary(st) && IsQuote(ch) {
      KeyStepKeepsInv(data, numbers, st, c);
    } else {
      ValueStepKeepsInv(data, numbers, st, c);
    }
  }

  lemma {:induction false} RunKeepsInv(data: seq<byte>, numbers: Numbers, st: State)
    requires Inv(st)
    ensures Inv(Run(data, numbers, st))
    decreases Remaining(data, st.idx), if st.attr.nameIdx == 0 then 1 else 0
  {
    if Cursor(data, st) < |data| {
      StepKeepsInv(data, numbers, st);
      RunKeepsInv(data, numbers, Step(data, numbers, st));
    }
  }

  lemma {:induction false} DrainKeepsInv(st: State)
    requires Inv(st)
    ensures Inv(Drain(st))
    decreases |st.stack|
  {
    if |st.stack| > 0 {
      EndElementKeepsInv(st);
      DrainKeepsInv(EndElement(st));
    }
  }

  /** Every root the reader returns is well formed, and so can be serialized. */
  lemma ParseIsWellFormed(data: seq<byte>, numbers: Numbers)
    ensures Parse(data, numbers).Some? ==>
      WellFormed(Parse(data, numbers).value) && Serializable(Parse(data, numbers).value)
  {
    StartSatisfiesInv();
    RunKeepsInv(data, numbers, Start);
    DrainKeepsInv(Run(data, numbers, Start));
    if Parse(data, numbers).Some? {
      WellFormedIsSerializable(Parse(data, numbers).value);
    }
  }
}

module ReaderRoot {
  import opened Wrappers
  import opened Bytes
  import opened Scanner
  import opened Reader

  /** Nothing parsed yet: no open container, no root, no current element, no pending key. */
  predicate Quiet(st: State)
  {
    st.stack == [] && st.root == None && st.loose == None && st.attr == EmptyAttribute
  }

  /** From `from` on, the buffer holds only separators and close bytes. */
  predicate OnlyClosers(data: seq<byte>, from: nat)
  {
    forall i :: from <= i < |data| ==> data[i] in SeparatorBytes || IsClose(data[i])
  }

  /** Something has been parsed: a root exists or a container is open. */
  predicate Rooted(st: State)
  {
    st.root.Some? || |st.stack| > 0
  }

  lemma {:induction false} QuietRunStaysQuiet(data: seq<byte>, numbers: Numbers, st: State)
    requires Quiet(st) && OnlyClosers(data, st.idx)
    ensures Run(data, numbers, st).root == None && Run(data, numbers, st).stack == []
    decreases Remaining(data, st.idx), if st.attr.nameIdx == 0 then 1 else 0
  {
    var c := Cursor(data, st);
    if c < |data| {
      assert IsClose(data[c]);
      var next := Step(data, numbers, st);
      assert next == st.(idx := c + 1);
      QuietRunStaysQuiet(data, numbers, next);
    }
  }

  lemma ParseValueAtKeepsRooted(data: seq<byte>, numbers: Numbers, st: State, key: Option<seq<byte>>, n: nat)
    requires Rooted(st)
    ensures Rooted(ParseValueAt(data, numbers, st, key, n))
  {
  }

  lemma StepKeepsRooted(data: seq<byte>, numbers: Numbers, st: State)
    requires Rooted(st) && Cursor(data, st) < |data|
    ensures Rooted(Step(data, numbers, st))
  {
    var c := Cursor(data, st);
    if !IsClose(data[c]) && !IsOpen(data[c]) {
      if InDictionary(st) && IsQuote(data[c]) {
        if st.attr.nameIdx == 0 {
          var k := ScanKey(data, c);
          var attr := st.attr.(nameIdx := c + 1, endNameIdx := k.endName);
          ParseValueAtKeepsRooted(data, numbers, st.(attr := attr), AttributeName(data, attr), k.valueStart);
        }
      } else {
        ParseValueAtKeepsRooted(data, numbers, st, None, StrSkip(data, c, WhitespaceBytes));
      }
    }
  }

  lemma {:induction false} RunKeepsRooted(data: seq<byte>, numbers: Numbers, st: State)
    requires Rooted(st)
    ensures Rooted(Run(data, numbers, st))
    decreases Remaining(data, st.idx), if st.attr.nameIdx == 0 then 1 else 0
  {
    if Cursor(data, st) < |data| {
      StepKeepsRooted(data, numbers, st);
      RunKeepsRooted(data, numbers, Step(data, numbers, st));
    }
  }

  /** From a quiet state, any byte that is neither a separator nor a close byte starts a value or a container. */
  lemma QuietValueRoots(data: seq<byte>, numbers: Numbers, st: State)
    requires Quiet(st) && Cursor(data, st) < |data| && !IsClose(data[Cursor(data, st)])
    ensures Rooted(Step(data, numbers, st))
  {
    var c := Cursor(data, st);
    if !IsOpen(data[c]) {
      assert st.Current() == None;
      var n := StrSkip(data, c, WhitespaceBytes);
      assert n == c;
      var nextChar := data[c];
      if !IsQuote(nextChar) && !LiteralAt(data, c, NullText) {
        var tok := ScanToken(data, c, IntValue);
        assert TokenElement(numbers, data, c, tok).Some?;
      }
    }
  }

  lemma {:induction false} QuietRunRoots(data: seq<byte>, numbers: Numbers, st: State)
    requires Quiet(st) && !OnlyClosers(data, st.idx)
    ensures Rooted(Run(data, numbers, st))
    decreases Remaining(data, st.idx), if st.attr.nameIdx == 0 then 1 else 0
  {
    var c := Cursor(data, st);
    if c >= |data| {
      forall i | st.idx <= i < |data| ensures data[i] in SeparatorBytes {
        assert At(data, i) in SeparatorBytes;
      }
      assert false;
    }
    if IsClose(data[c]) {
      var next := Step(data, numbers, st);
      assert next == st.(idx := c + 1);
      forall i | st.idx <= i <= c ensures data[i] in SeparatorBytes || IsClose(data[i]) {
        if i < c { assert At(data, i) in SeparatorBytes; }
      }
      QuietRunRoots(data, numbers, next);
    } else {
      QuietValueRoots(data, numbers, st);
      RunKeepsRooted(data, numbers, Step(data, numbers, st));
    }
  }

  /**
   The reader returns no root exactly when the input holds nothing but
   space, tab, newline, CR, commas and close bytes; in particular for an
   empty or blank buffer.
   */
  lemma NoRootIffOnlyClosers(data: seq<byte>, numbers: Numbers)
    ensures Parse(data, numbers).None? <==> OnlyClosers(data, 0)
  {
    assert Quiet(Start);
    if OnlyClosers(data, 0) {
      QuietRunStaysQuiet(data, numbers, Start);
    } else {
      QuietRunRoots(data, numbers, Start);
    }
  }

  /** The empty buffer and a buffer of separators alone give no root. */
  lemma BlankInputHasNoRoot(data: seq<byte>, numbers: Numbers)
    requires forall i :: 0 <= i < |data| ==> data[i] in SeparatorBytes
    ensures Parse(data, numbers) == None
  {
    NoRootIffOnlyClosers(data, numbers);
  }
}

=== FILE: reader_steps.dfy ===
/**
 What one iteration of the reader's main loop does to the current element,
 case by case: each kind of value inside an array and under a key in a
 dictionary, the empty-key case and the pop that follows a number ended by
 `]`. Each case states the whole new stack, root and attribute.
 */
module ReaderSteps {
  import opened Wrappers
  import opened Bytes
  import opened Element
  import opened Scanner
  import opened Reader

  /** The node of the top frame. */
  function Top(st: State): JsonElement
    requires |st.stack| > 0
  {
    st.stack[|st.stack| - 1].node
  }

  /** The cursor sits on byte `c` inside an open array. */
  predicate AtInArray(data: seq<byte>, st: State)
  {
    Cursor(data, st) < |data| && |st.stack| > 0 && Top(st).kind == Array
  }

  /**
   `r` is `st` with only the top frame's node replaced by `node`: the lower
   frames, the top frame's attachment, the root and the loose scalar stay.
   */
  predicate TopReplaced(st: State, r: State, node: JsonElement)
    requires |st.stack| > 0
  {
    var n := |st.stack|;
    && |r.stack| == n
    && r.stack[..n - 1] == st.stack[..n - 1]
    && r.stack[n - 1] == Frame(node, st.stack[n - 1].attach)
    && r.root == st.root && r.loose == st.loose
  }

  /**
   `r` is `st` with the top frame's node replaced by `node` and then popped:
   it becomes the root when it was the only frame, and is folded into the
   frame below otherwise, the frames under that one staying as they were.
   */
  predicate TopPopped(st: State, r: State, node: JsonElement)
    requires |st.stack| > 0
  {
    var n := |st.stack|;
    && |r.stack| == n - 1 && r.loose == None
    && (n == 1 ==> r.root == Some(node))
    && (n > 1 ==>
          && r.root == st.root
          && r.stack[..n - 2] == st.stack[..n - 2]
          && r.stack[n - 2] == Frame(Fold(st.stack[n - 2].node, Frame(node, st.stack[n - 1].attach)), st.stack[n - 2].attach))
  }

  lemma LiteralStartsWithItsFirstByte(data: seq<byte>, i: int, lit: seq<byte>)
    ensures LiteralAt(data, i, lit) && |lit| > 0 ==> data[i] == lit[0]
  {
    if LiteralAt(data, i, lit) && |lit| > 0 {
      assert data[i..i + |lit|][0] == data[i];
    }
  }

  /** The current container takes a value appended under `key`: an array always, a dictionary only under a key. */
  predicate Takes(st: State, key: Option<seq<byte>>)
  {
    |st.stack| > 0 && (Top(st).kind == Array || (Top(st).kind == Dictionary && key.Some?))
  }

  /** The top node once `v` is appended to it under `key`. */
  function Grown(st: State, key: Option<seq<byte>>, v: JsonElement): JsonElement
    requires Takes(st, key)
  {
    if Top(st).kind == Array then AppendValue(Top(st), v) else AppendKeyValue(Top(st), key.value, v)
  }

  // The branches of the value parser, for a container that takes the value.

  /** A quoted value: a string of the bytes up to the next occurrence of its quote byte; the cursor moves past that quote. */
  lemma QuotedValueAt(data: seq<byte>, numbers: Numbers, st: State, key: Option<seq<byte>>, n: nat)
    requires Takes(st, key) && n < |data| && IsQuote(data[n])
    ensures var e := StrstrNoEscaped(data, n + 1, data[n]);
      var r := ParseValueAt(data, numbers, st, key, n);
      && n + 1 <= e <= |data|
      && r.idx == e + 1 && r.attr == Clear(st.attr)
      && TopReplaced(st, r, Grown(st, key, StringElement(data[n + 1..e])))
  {
  }

  /** `null`: a null node, and the cursor moves by four. */
  lemma NullValueAt(data: seq<byte>, numbers: Numbers, st: State, key: Option<seq<byte>>, n: nat)
    requires Takes(st, key) && LiteralAt(data, n, NullText)
    ensures var r := ParseValueAt(data, numbers, st, key, n);
      r.idx == n + 4 && r.attr == Clear(st.attr) && TopReplaced(st, r, Grown(st, key, NullElement()))
  {
    LiteralStartsWithItsFirstByte(data, n, NullText);
  }

  /** `true`: `bool(true)`, and the cursor moves by four. */
  lemma TrueValueAt(data: seq<byte>, numbers: Numbers, st: State, key: Option<seq<byte>>, n: nat)
    requires Takes(st, key) && LiteralAt(data, n, TrueText)
    ensures var r := ParseValueAt(data, numbers, st, key, n);
      r.idx == n + 4 && r.attr == Clear(st.attr) && TopReplaced(st, r, Grown(st, key, BoolElement(true)))
  {
    LiteralStartsWithItsFirstByte(data, n, TrueText);
    LiteralStartsWithItsFirstByte(data, n, FalseText);
    LiteralStartsWithItsFirstByte(data, n, NullText);
    assert ScanToken(data, n, IntValue) == Token(n + 4, BooleanTrue, LetterT);
  }

  /** `false`: `bool(false)`, and the cursor moves by five. */
  lemma FalseValueAt(data: seq<byte>, numbers: Numbers, st: State, key: Option<seq<byte>>, n: nat)
    requires Takes(st, key) && LiteralAt(data, n, FalseText)
    ensures var r := ParseValueAt(data, numbers, st, key, n);
      r.idx == n + 5 && r.attr == Clear(st.attr) && TopReplaced(st, r, Grown(st, key, BoolElement(false)))
  {
    LiteralStartsWithItsFirstByte(data, n, FalseText);
    LiteralStartsWithItsFirstByte(data, n, NullText);
    assert ScanToken(data, n, IntValue) == Token(n + 5, BooleanFalse, LetterF);
  }

  /** The node a number token stands for: an int or a double of its span, or null when it does not convert. */
  function NumberNode(numbers: Numbers, data: seq<byte>, c: nat, tok: Token): JsonElement
  {
    if tok.vtype == IntValue then AsInt(numbers, Slice(data, c, tok.end))
    else AsDouble(numbers, Slice(data, c, tok.end))
  }

  /** The state once the number at `n` has been appended under `key` and the attribute cleared. */
  function NumberAppended(data: seq<byte>, numbers: Numbers, st: State, key: Option<seq<byte>>, n: nat): State
  {
    var tok := ScanToken(data, n, IntValue);
    var st1 := AppendElement(st.(attr := st.attr.(vtype := tok.vtype, valueIdx := n)), key, NumberNode(numbers, data, n, tok));
    st1.(attr := Clear(st1.attr))
  }

  /** The number branch of the value parser: append, clear, and pop when the number ended on `]`. */
  lemma NumberBranch(data: seq<byte>, numbers: Numbers, st: State, key: Option<seq<byte>>, n: nat)
    requires !IsQuote(At(data, n)) && !IsOpen(At(data, n)) && !LiteralAt(data, n, NullText)
    requires IsNumberType(ScanToken(data, n, IntValue).vtype)
    ensures var tok := ScanToken(data, n, IntValue);
      var st2 := NumberAppended(data, numbers, st, key, n);
      ParseValueAt(data, numbers, st, key, n)
        == if At(data, tok.end) == CloseBrace then EndElement(st2).(idx := tok.end) else st2.(idx := tok.end)
  {
    var tok := ScanToken(data, n, IntValue);
    assert TokenElement(numbers, data, n, tok) == Some(NumberNode(numbers, data, n, tok));
    assert tok.last == At(data, tok.end);
  }

  /**
   A number: an int, or a double when its span holds a `.`, and the cursor
   stops on the byte that ended it; a `]` there also pops the container.
   */
  lemma NumberValueAt(data: seq<byte>, numbers: Numbers, st: State, key: Option<seq<byte>>, n: nat)
    requires Takes(st, key)
    requires !IsQuote(At(data, n)) && !IsOpen(At(data, n)) && !LiteralAt(data, n, NullText)
    requires IsNumberType(ScanToken(data, n, IntValue).vtype)
    ensures var tok := ScanToken(data, n, IntValue);
      var grown := Grown(st, key, NumberNode(numbers, data, n, tok));
      var r := ParseValueAt(data, numbers, st, key, n);
      && r.idx == tok.end
      && r.attr == Clear(st.attr)
      && (At(data, tok.end) != CloseBrace ==> TopReplaced(st, r, grown))
      && (At(data, tok.end) == CloseBrace ==> TopPopped(st, r, grown))
  {
    NumberBranch(data, numbers, st, key, n);
    var st2 := NumberAppended(data, numbers, st, key, n);
    assert TopReplaced(st, st2, Grown(st, key, NumberNode(numbers, data, n, ScanToken(data, n, IntValue))));
  }

  // Values inside an array.

  /** A close byte is never skipped: the next iteration classifies it where it is. */
  lemma CursorStaysOnClose(data: seq<byte>, st: State)
    requires st.idx < |data| && IsClose(data[st.idx])
    ensures Cursor(data, st) == st.idx
  {
  }

  /** A byte inside an array that neither opens nor closes starts a value, parsed with no key. */
  lemma ArrayStepParsesValue(data: seq<byte>, numbers: Numbers, st: State)
    requires AtInArray(data, st) && !IsOpen(data[Cursor(data, st)]) && !IsClose(data[Cursor(data, st)])
    ensures Step(data, numbers, st) == ParseValueAt(data, numbers, st, None, Cursor(data, st))
  {
    var c := Cursor(data, st);
    assert StrSkip(data, c, WhitespaceBytes) == c;
  }

  /**
   A quoted value inside an array becomes a string node holding the bytes up
   to the next occurrence of the same quote byte, and the cursor moves one
   past that quote.
   */
  lemma QuotedValueInArray(data: seq<byte>, numbers: Numbers, st: State)
    requires AtInArray(data, st) && IsQuote(data[Cursor(data, st)])
    ensures var c := Cursor(data, st);
      var e := StrstrNoEscaped(data, c + 1, data[c]);
      var r := Step(data, numbers, st);
      && c + 1 <= e <= |data|
      && r.idx == e + 1
      && |r.stack| == |st.stack|
      && r.Current() == Some(AppendValue(Top(st), StringElement(data[c + 1..e])))
      && TopReplaced(st, r, AppendValue(Top(st), StringElement(data[c + 1..e])))
      && r.attr == Clear(st.attr)
  {
    ArrayStepParsesValue(data, numbers, st);
    QuotedValueAt(data, numbers, st, None, Cursor(data, st));
  }

  /** `null` inside an array appends a null node and moves the cursor by four. */
  lemma NullValueInArray(data: seq<byte>, numbers: Numbers, st: State)
    requires AtInArray(data, st) && LiteralAt(data, Cursor(data, st), NullText)
    ensures var r := Step(data, numbers, st);
      && r.idx == Cursor(data, st) + 4
      && r.Current() == Some(AppendValue(Top(st), NullElement()))
      && TopReplaced(st, r, AppendValue(Top(st), NullElement()))
      && r.attr == Clear(st.attr)
  {
    LiteralStartsWithItsFirstByte(data, Cursor(data, st), NullText);
    ArrayStepParsesValue(data, numbers, st);
    NullValueAt(data, numbers, st, None, Cursor(data, st));
  }

  /** `true` inside an array appends `bool(true)` and moves the cursor by four. */
  lemma TrueValueInArray(data: seq<byte>, numbers: Numbers, st: State)
    requires AtInArray(data, st) && LiteralAt(data, Cursor(data, st), TrueText)
    ensures var r := Step(data, numbers, st);
      && r.idx == Cursor(data, st) + 4
      && r.Current() == Some(AppendValue(Top(st), BoolElement(true)))
      && TopReplaced(st, r, AppendValue(Top(st), BoolElement(true)))
      && r.attr == Clear(st.attr)
  {
    LiteralStartsWithItsFirstByte(data, Cursor(data, st), TrueText);
    ArrayStepParsesValue(data, numbers, st);
    TrueValueAt(data, numbers, st, None, Cursor(data, st));
  }

  /** `false` inside an array appends `bool(false)` and moves the cursor by five. */
  lemma FalseValueInArray(data: seq<byte>, numbers: Numbers, st: State)
    requires AtInArray(data, st) && LiteralAt(data, Cursor(data, st), FalseText)
    ensures var r := Step(data, numbers, st);
      && r.idx == Cursor(data, st) + 5
      && r.Current() == Some(AppendValue(Top(st), BoolElement(false)))
      && TopReplaced(st, r, AppendValue(Top(st), BoolElement(false)))
      && r.attr == Clear(st.attr)
  {
    LiteralStartsWithItsFirstByte(data, Cursor(data, st), FalseText);
    ArrayStepParsesValue(data, numbers, st);
    FalseValueAt(data, numbers, st, None, Cursor(data, st));
  }

  /** The cursor is on a byte inside an array that starts a number token. */
  predicate AtNumberInArray(data: seq<byte>, st: State)
  {
    && AtInArray(data, st)
    && var c := Cursor(data, st);
       && !IsQuote(data[c]) && !IsOpen(data[c]) && !IsClose(data[c])
       && !LiteralAt(data, c, NullText)
       && IsNumberType(ScanToken(data, c, IntValue).vtype)
  }

  /**
   A number inside an array is appended as an int, or a double when its
   span holds a `.`, and the cursor stops on the byte that ended it. When
   that byte is `]`, the array is also closed right away.
   */
  lemma NumberInArray(data: seq<byte>, numbers: Numbers, st: State)
    requires AtNumberInArray(data, st)
    ensures var c := Cursor(data, st);
      var tok := ScanToken(data, c, IntValue);
      var v := NumberNode(numbers, data, c, tok);
      var r := Step(data, numbers, st);
      var n := |st.stack|;
      && r.idx == tok.end
      && r.attr == Clear(st.attr)
      && (At(data, tok.end) != CloseBrace ==>
            r.Current() == Some(AppendValue(Top(st), v)) && TopReplaced(st, r, AppendValue(Top(st), v)))
      && (At(data, tok.end) == CloseBrace ==>
            && TopPopped(st, r, AppendValue(Top(st), v))
            && (n > 1 ==> Top(r) == Fold(st.stack[n - 2].node, Frame(AppendValue(Top(st), v), st.stack[n - 1].attach))))
  {
    ArrayStepParsesValue(data, numbers, st);
    NumberValueAt(data, numbers, st, None, Cursor(data, st));
  }

  /**
   After a number ended by `]` the array is closed by the value parser, but
   the cursor is left on the `]`, so the next iteration closes the enclosing
   container as well: one `]` pops two containers.
   */
  lemma NumberBeforeCloseBracePopsTwice(data: seq<byte>, numbers: Numbers, st: State)
    requires AtNumberInArray(data, st)
    requires At(data, ScanToken(data, Cursor(data, st), IntValue).end) == CloseBrace
    ensures var r := Step(data, numbers, st);
      && Cursor(data, r) < |data|
      && Cursor(data, r) == r.idx
      && |Step(data, numbers, r).stack| == if |st.stack| >= 2 then |st.stack| - 2 else 0
  {
    NumberInArray(data, numbers, st);
    var r := Step(data, numbers, st);
    assert At(data, r.idx) == CloseBrace;
    assert r.idx < |data|;
  }

  // Entries inside a dictionary.

  /** The cursor is on the opening quote of a key inside a dictionary, with no key pending. */
  predicate AtEntryInDictionary(data: seq<byte>, st: State)
  {
    && Cursor(data, st) < |data| && |st.stack| > 0 && Top(st).kind == Dictionary
    && IsQuote(data[Cursor(data, st)]) && st.attr.nameIdx == 0
  }

  /** A key with at least one byte starts at the cursor inside a dictionary. */
  predicate AtKeyedValue(data: seq<byte>, st: State)
  {
    AtEntryInDictionary(data, st) && ScanKey(data, Cursor(data, st)).endName > Cursor(data, st) + 1
  }

  /** The key of the entry at the cursor. */
  function KeyAt(data: seq<byte>, st: State): seq<byte>
    requires AtKeyedValue(data, st)
  {
    var c := Cursor(data, st);
    data[c + 1..ScanKey(data, c).endName]
  }

  /** The attribute a key step records before it parses the value: the key's start and end. */
  function KeyAttribute(data: seq<byte>, st: State): ParseValue
    requires AtKeyedValue(data, st)
  {
    var c := Cursor(data, st);
    st.attr.(nameIdx := c + 1, endNameIdx := ScanKey(data, c).endName)
  }

  /** A key step with a non-empty key is the value parser run at the value start, under that key. */
  lemma KeyedStepParsesValue(data: seq<byte>, numbers: Numbers, st: State)
    requires AtKeyedValue(data, st)
    ensures Step(data, numbers, st)
      == ParseValueAt(data, numbers, st.(attr := KeyAttribute(data, st)), Some(KeyAt(data, st)),
                      ScanKey(data, Cursor(data, st)).valueStart)
  {
    var c := Cursor(data, st);
    assert !IsClose(data[c]) && !IsOpen(data[c]) && InDictionary(st);
    assert Step(data, numbers, st) == KeyStep(data, numbers, st, c);
    assert AttributeName(data, KeyAttribute(data, st)) == Some(KeyAt(data, st));
  }

  /**
   A `"key": "value"` entry appends a string node under the key: the key is
   the bytes up to the next occurrence of its own quote byte, the value the
   bytes up to the next occurrence of its quote byte, and the cursor moves
   past the value's closing quote with the pending key cleared.
   */
  lemma KeyedStringValue(data: seq<byte>, numbers: Numbers, st: State)
    requires AtKeyedValue(data, st)
    requires IsQuote(At(data, ScanKey(data, Cursor(data, st)).valueStart))
    ensures var k := ScanKey(data, Cursor(data, st));
      var e := StrstrNoEscaped(data, k.valueStart + 1, data[k.valueStart]);
      var r := Step(data, numbers, st);
      && k.valueStart + 1 <= e <= |data|
      && r.idx == e + 1
      && r.attr == Clear(st.attr).(endNameIdx := k.endName)
      && r.Current() == Some(AppendKeyValue(Top(st), KeyAt(data, st), StringElement(data[k.valueStart + 1..e])))
      && TopReplaced(st, r, AppendKeyValue(Top(st), KeyAt(data, st), StringElement(data[k.valueStart + 1..e])))
  {
    KeyedStepParsesValue(data, numbers, st);
    QuotedValueAt(data, numbers, st.(attr := KeyAttribute(data, st)), Some(KeyAt(data, st)),
                  ScanKey(data, Cursor(data, st)).valueStart);
  }

  /** `"key": null` appends a null node under the key and moves the cursor four past the value start. */
  lemma KeyedNullValue(data: seq<byte>, numbers: Numbers, st: State)
    requires AtKeyedValue(data, st)
    requires LiteralAt(data, ScanKey(data, Cursor(data, st)).valueStart, NullText)
    ensures var k := ScanKey(data, Cursor(data, st));
      var r := Step(data, numbers, st);
      && r.idx == k.valueStart + 4
      && r.attr == Clear(st.attr).(endNameIdx := k.endName)
      && TopReplaced(st, r, AppendKeyValue(Top(st), KeyAt(data, st), NullElement()))
  {
    KeyedStepParsesValue(data, numbers, st);
    NullValueAt(data, numbers, st.(attr := KeyAttribute(data, st)), Some(KeyAt(data, st)),
                ScanKey(data, Cursor(data, st)).valueStart);
  }

  /** `"key": true` appends `bool(true)` under the key and moves the cursor four past the value start. */
  lemma KeyedTrueValue(data: seq<byte>, numbers: Numbers, st: State)
    requires AtKeyedValue(data, st)
    requires LiteralAt(data, ScanKey(data, Cursor(data, st)).valueStart, TrueText)
    ensures var k := ScanKey(data, Cursor(data, st));
      var r := Step(data, numbers, st);
      && r.idx == k.valueStart + 4
      && r.attr == Clear(st.attr).(endNameIdx := k.endName)
      && TopReplaced(st, r, AppendKeyValue(Top(st), KeyAt(data, st), BoolElement(true)))
  {
    KeyedStepParsesValue(data, numbers, st);
    TrueValueAt(data, numbers, st.(attr := KeyAttribute(data, st)), Some(KeyAt(data, st)),
                ScanKey(data, Cursor(data, st)).valueStart);
  }

  /** `"key": false` appends `bool(false)` under the key and moves the cursor five past the value start. */
  lemma KeyedFalseValue(data: seq<byte>, numbers: Numbers, st: State)
    requires AtKeyedValue(data, st)
    requires LiteralAt(data, ScanKey(data, Cursor(data, st)).valueStart, FalseText)
    ensures var k := ScanKey(data, Cursor(data, st));
      var r := Step(data, numbers, st);
      && r.idx == k.valueStart + 5
      && r.attr == Clear(st.attr).(endNameIdx := k.endName)
      && TopReplaced(st, r, AppendKeyValue(Top(st), KeyAt(data, st), BoolElement(false)))
  {
    KeyedStepParsesValue(data, numbers, st);
    FalseValueAt(data, numbers, st.(attr := KeyAttribute(data, st)), Some(KeyAt(data, st)),
                 ScanKey(data, Cursor(data, st)).valueStart);
  }

  /** The value of the entry at the cursor starts a number token. */
  predicate AtKeyedNumber(data: seq<byte>, st: State)
  {
    && AtKeyedValue(data, st)
    && var v := ScanKey(data, Cursor(data, st)).valueStart;
       && !IsQuote(At(data, v)) && !IsOpen(At(data, v))
       && !LiteralAt(data, v, NullText)
       && IsNumberType(ScanToken(data, v, IntValue).vtype)
  }

  /**
   `"key": <number>` appends an int, or a double when the span holds a `.`,
   under the key, and the cursor stops on the byte that ended the number. A
   `}` there is left for the next iteration to close the dictionary; a `]`
   closes the dictionary at once, as in an array.
   */
  lemma KeyedNumberValue(data: seq<byte>, numbers: Numbers, st: State)
    requires AtKeyedNumber(data, st)
    ensures var k := ScanKey(data, Cursor(data, st));
      var tok := ScanToken(data, k.valueStart, IntValue);
      var v := NumberNode(numbers, data, k.valueStart, tok);
      var r := Step(data, numbers, st);
      && r.idx == tok.end
      && r.attr == Clear(st.attr).(endNameIdx := k.endName)
      && (At(data, tok.end) != CloseBrace ==> TopReplaced(st, r, AppendKeyValue(Top(st), KeyAt(data, st), v)))
      && (At(data, tok.end) == CloseBracket ==> Cursor(data, r) == tok.end)
      && (At(data, tok.end) == CloseBrace ==> TopPopped(st, r, AppendKeyValue(Top(st), KeyAt(data, st), v)))
  {
    var v := ScanKey(data, Cursor(data, st)).valueStart;
    var st' := st.(attr := KeyAttribute(data, st));
    var tok := ScanToken(data, v, IntValue);
    KeyedStepParsesValue(data, numbers, st);
    NumberValueAt(data, numbers, st', Some(KeyAt(data, st)), v);
    assert Grown(st', Some(KeyAt(data, st)), NumberNode(numbers, data, v, tok))
        == AppendKeyValue(Top(st), KeyAt(data, st), NumberNode(numbers, data, v, tok));
    if At(data, tok.end) == CloseBracket {
      CursorStaysOnClose(data, Step(data, numbers, st));
    }
  }

  /**
   A key followed by `{` or `[` is remembered and the cursor stops on the
   open byte; the next iteration opens the container and links it to the
   dictionary under that key.
   */
  lemma KeyedContainerIsDeferred(data: seq<byte>, numbers: Numbers, st: State)
    requires AtKeyedValue(data, st)
    requires IsOpen(At(data, ScanKey(data, Cursor(data, st)).valueStart))
    ensures var c := Cursor(data, st);
      var k := ScanKey(data, c);
      var r := Step(data, numbers, st);
      && r.idx == k.valueStart
      && r.stack == st.stack
      && Cursor(data, r) == k.valueStart < |data|
      && var r2 := Step(data, numbers, r);
         && |r2.stack| == |st.stack| + 1
         && r2.stack[..|st.stack|] == st.stack
         && r2.stack[|st.stack|].attach == Keyed(data[c + 1..k.endName])
         && r2.attr.nameIdx == 0
  {
  }

  /**
   An empty key (the quote is followed at once by the same quote) does not
   move the cursor, but records the key start; the iteration after that
   steps over the quote without touching the tree.
   */
  lemma EmptyKeyIsSkipped(data: seq<byte>, numbers: Numbers, st: State)
    requires AtEntryInDictionary(data, st)
    requires var c := Cursor(data, st); ScanKey(data, c).endName == c + 1
    ensures var c := Cursor(data, st);
      var r := Step(data, numbers, st);
      && r.idx == c && r.stack == st.stack && r.root == st.root && r.loose == st.loose
      && r.attr.nameIdx == c + 1
      && Cursor(data, r) == c
      && Step(data, numbers, r) == r.(idx := c + 1)
  {
  }
}

=== FILE: roundtrip.dfy ===
/**
 Serializing and reading back. Reading the text of a string node, or of an
 array of string nodes, gives the same tree back, as long as no string holds
 a double quote or a NUL byte: the serializer does not escape, and the
 reader stops a string at the first occurrence of its quote byte or NUL.
 */
module RoundTrip {
  import opened Wrappers
  import opened Bytes
  import opened Element
  import opened Scanner
  import opened Serializer
  import opened Reader
  import opened ReaderSteps

  /** A byte string the reader can carry inside double quotes unchanged. */
  predicate Quotable(s: seq<byte>)
  {
    forall i :: 0 <= i < |s| ==> s[i] != DoubleQuote && s[i] != Nul
  }

  function Quoted(s: seq<byte>): seq<byte>
  {
    [DoubleQuote] + s + [DoubleQuote]
  }

  /** The string nodes of the given byte strings. */
  function Strings(items: seq<seq<byte>>): (r: seq<JsonElement>)
    ensures |r| == |items|
    ensures forall i :: 0 <= i < |items| ==> r[i] == StringElement(items[i])
  {
    seq(|items|, i requires 0 <= i < |items| => StringElement(items[i]))
  }

  /**
   A string node without double quotes or NUL bytes reads back from its
   own text as the same node.
   */
  lemma StringRoundTrip(s: seq<byte>, numbers: Numbers, fmt: Formats)
    requires Quotable(s)
    ensures Parse(Json(StringElement(s), fmt), numbers) == Some(StringElement(s))
  {
    var data := Json(StringElement(s), fmt);
    assert data[0..] == Quoted(s) + [];
    QuotedPrefix(data, 0, s, []);
    QuoteEnds(data, 0, s);
    assert Cursor(data, Start) == 0;
    assert StrSkip(data, 0, WhitespaceBytes) == 0;
    var r := Step(data, numbers, Start);
    assert r.root == Some(StringElement(s)) && r.stack == [];
    assert r.idx == |data|;
    assert Run(data, numbers, Start) == Run(data, numbers, r) == r;
    assert Drain(r) == r;
  }

  /** The quoted texts of the given byte strings, as the serializer writes array elements. */
  function QuotedAll(items: seq<seq<byte>>): (r: seq<seq<byte>>)
    ensures |r| == |items|
    ensures forall i :: 0 <= i < |items| ==> r[i] == Quoted(items[i])
  {
    seq(|items|, i requires 0 <= i < |items| => Quoted(items[i]))
  }

  /** The reader state inside the array after the first `i` strings. */
  function InArray(idx: nat, items: seq<seq<byte>>, i: nat): State
    requires i <= |items|
  {
    State(idx, [Frame(ArrayElement(Strings(items[..i])), Detached)], EmptyAttribute, None, None)
  }

  /**
   Where the strings of an array sit in `data`, from string `i` on: each is
   quoted, a comma follows every string but the last, and a close bracket
   ends the buffer.
   */
  predicate Layout(data: seq<byte>, items: seq<seq<byte>>, i: nat, pre: nat)
    decreases |items| - i
  {
    if i >= |items| then pre + 1 == |data| && data[pre] == CloseBrace
    else
      var e := pre + 1 + |items[i]|;
      && e + 1 < |data|
      && data[pre] == DoubleQuote && data[pre + 1..e] == items[i] && data[e] == DoubleQuote
      && if i + 1 < |items| then data[e + 1] == Comma && Layout(data, items, i + 1, e + 2)
         else Layout(data, items, i + 1, e + 1)
  }

  /** The first byte a layout promises: a quote before a string, the close bracket after the last. */
  lemma LayoutStart(data: seq<byte>, items: seq<seq<byte>>, i: nat, pre: nat)
    requires Layout(data, items, i, pre)
    ensures pre < |data|
    ensures data[pre] == if i < |items| then DoubleQuote else CloseBrace
  {
  }

  /** The text of a run of quoted strings followed by `]` has the layout of those strings. */
  lemma {:induction false} TextHasLayout(data: seq<byte>, items: seq<seq<byte>>, i: nat, pre: nat)
    requires i < |items| && pre <= |data|
    requires data[pre..] == Join(QuotedAll(items)[i..]) + [CloseBrace]
    ensures Layout(data, items, i, pre)
    decreases |items| - i
  {
    var e := pre + 1 + |items[i]|;
    NextQuotedPart(data, items, i, pre);
    if i + 1 < |items| {
      TextHasLayout(data, items, i + 1, e + 2);
    }
  }

  /** String `i` of the text is quoted, and a comma and the next strings, or the close bracket, follow it. */
  lemma NextQuotedPart(data: seq<byte>, items: seq<seq<byte>>, i: nat, pre: nat)
    requires i < |items| && pre <= |data|
    requires data[pre..] == Join(QuotedAll(items)[i..]) + [CloseBrace]
    ensures var e := pre + 1 + |items[i]|;
      && e + 1 < |data|
      && data[pre] == DoubleQuote && data[pre + 1..e] == items[i] && data[e] == DoubleQuote
      && (i + 1 < |items| ==> data[e + 1] == Comma && data[e + 2..] == Join(QuotedAll(items)[i + 1..]) + [CloseBrace])
      && (i + 1 == |items| ==> e + 2 == |data| && data[e + 1] == CloseBrace)
  {
    var parts := QuotedAll(items);
    var s := items[i];
    var e := pre + 1 + |s|;
    JoinSuffix(parts, i);
    var more := if i + 1 < |items| then [Comma] + Join(parts[i + 1..]) else [];
    assert data[pre..] == Quoted(s) + (more + [CloseBrace]);
    QuotedPrefix(data, pre, s, more + [CloseBrace]);
    assert data[e + 1] == data[e + 1..][0];
    if i + 1 < |items| {
      assert data[e + 2..] == Join(parts[i + 1..]) + [CloseBrace] by {
        assert data[e + 2..] == data[e + 1..][1..];
      }
    }
  }

  /** Where the bytes of a quoted string and what follows it sit. */
  lemma QuotedPrefix(data: seq<byte>, pre: nat, s: seq<byte>, tail: seq<byte>)
    requires pre <= |data| && data[pre..] == Quoted(s) + tail
    ensures pre + 2 + |s| <= |data|
    ensures data[pre] == DoubleQuote && data[pre + 1..pre + 1 + |s|] == s && data[pre + 1 + |s|] == DoubleQuote
    ensures data[pre + 2 + |s|..] == tail
  {
    var q := Quoted(s) + tail;
    assert |data| - pre == |q| == 2 + |s| + |tail|;
    assert q[1..1 + |s|] == s && q[1 + |s|] == DoubleQuote && q[2 + |s|..] == tail;
    assert data[pre] == data[pre..][0];
    assert data[pre + 1..pre + 1 + |s|] == data[pre..][1..1 + |s|];
    assert data[pre + 1 + |s|] == data[pre..][1 + |s|];
    assert data[pre + 2 + |s|..] == data[pre..][2 + |s|..];
  }

  /** A quoted string whose bytes are known ends at the quote after them. */
  lemma QuoteEnds(data: seq<byte>, pre: nat, s: seq<byte>)
    requires Quotable(s) && pre + 1 + |s| < |data|
    requires data[pre + 1..pre + 1 + |s|] == s && data[pre + 1 + |s|] == DoubleQuote
    ensures StrstrNoEscaped(data, pre + 1, DoubleQuote) == pre + 1 + |s|
  {
    forall j | pre + 1 <= j < pre + 1 + |s| ensures data[j] == s[j - pre - 1] {
      assert data[j] == data[pre + 1..pre + 1 + |s|][j - pre - 1];
    }
    assert At(data, pre + 1 + |s|) == DoubleQuote;
  }

  /** Reading string `i` of the array appends it and moves the cursor past its closing quote. */
  lemma ReadOneString(data: seq<byte>, numbers: Numbers, items: seq<seq<byte>>, i: nat, pre: nat, idx: nat)
    requires i < |items| && Quotable(items[i])
    requires pre + 2 + |items[i]| < |data| && data[pre] == DoubleQuote
    requires data[pre + 1..pre + 1 + |items[i]|] == items[i] && data[pre + 1 + |items[i]|] == DoubleQuote
    requires idx <= pre && Cursor(data, InArray(idx, items, i)) == pre
    ensures Run(data, numbers, InArray(idx, items, i)) == Run(data, numbers, InArray(pre + 2 + |items[i]|, items, i + 1))
  {
    StepOneString(data, numbers, items, i, pre, idx);
    RunAdvances(data, numbers, InArray(idx, items, i));
  }

  lemma StepOneString(data: seq<byte>, numbers: Numbers, items: seq<seq<byte>>, i: nat, pre: nat, idx: nat)
    requires i < |items| && Quotable(items[i])
    requires pre + 2 + |items[i]| < |data| && data[pre] == DoubleQuote
    requires data[pre + 1..pre + 1 + |items[i]|] == items[i] && data[pre + 1 + |items[i]|] == DoubleQuote
    requires idx <= pre && Cursor(data, InArray(idx, items, i)) == pre
    ensures Step(data, numbers, InArray(idx, items, i)) == InArray(pre + 2 + |items[i]|, items, i + 1)
  {
    var st := InArray(idx, items, i);
    var s := items[i];
    QuoteEnds(data, pre, s);
    QuotedValueInArray(data, numbers, st);
    var r := Step(data, numbers, st);
    var node := ArrayElement(Strings(items[..i + 1]));
    assert r.stack[0].node == node by {
      StringsSnoc(items, i);
    }
    assert r.stack == [Frame(node, Detached)];
  }

  /** One step of the main loop, when the cursor is not yet at the end. */
  lemma RunAdvances(data: seq<byte>, numbers: Numbers, st: State)
    requires Cursor(data, st) < |data|
    ensures Run(data, numbers, st) == Run(data, numbers, Step(data, numbers, st))
  {
  }

  lemma StringsSnoc(items: seq<seq<byte>>, i: nat)
    requires i < |items|
    ensures Strings(items[..i + 1]) == Strings(items[..i]) + [StringElement(items[i])]
  {
    assert items[..i + 1][..i] == items[..i];
  }

  /** A close bracket as the last byte pops the only open array and makes it the root. */
  lemma CloseLastArray(data: seq<byte>, numbers: Numbers, items: seq<seq<byte>>, idx: nat)
    requires Cursor(data, InArray(idx, items, |items|)) == |data| - 1
    requires |data| > 0 && data[|data| - 1] == CloseBrace
    ensures Run(data, numbers, InArray(idx, items, |items|)).stack == []
    ensures Run(data, numbers, InArray(idx, items, |items|)).root == Some(ArrayElement(Strings(items)))
  {
    var st := InArray(idx, items, |items|);
    assert items[..|items|] == items;
    var r := Step(data, numbers, st);
    assert r.stack == [] && r.root == Some(ArrayElement(Strings(items)));
    assert r.idx == |data|;
    assert Run(data, numbers, st) == Run(data, numbers, r) == r;
  }

  /** The cursor skips a comma and stops at the byte after it. */
  lemma CursorSkipsComma(data: seq<byte>, st: State)
    requires st.idx + 1 < |data| && data[st.idx] == Comma
    requires data[st.idx + 1] == DoubleQuote || data[st.idx + 1] == CloseBrace
    ensures Cursor(data, st) == st.idx + 1
  {
    assert StrSkip(data, st.idx + 1, SeparatorBytes) == st.idx + 1;
  }

  /**
   From the state after `i` strings of the array, with the rest of the
   buffer laid out as the remaining strings, the main loop reads them all
   and closes the array as the root.
   */
  lemma {:induction false} ReadRemainingStrings(data: seq<byte>, numbers: Numbers, items: seq<seq<byte>>, i: nat, pre: nat, idx: nat)
    requires forall k :: 0 <= k < |items| ==> Quotable(items[k])
    requires i <= |items| && Layout(data, items, i, pre)
    requires idx <= pre && Cursor(data, InArray(idx, items, i)) == pre
    ensures Run(data, numbers, InArray(idx, items, i)).stack == []
    ensures Run(data, numbers, InArray(idx, items, i)).root == Some(ArrayElement(Strings(items)))
    decreases |items| - i
  {
    if i == |items| {
      CloseLastArray(data, numbers, items, idx);
    } else {
      var e := pre + 1 + |items[i]|;
      if i + 1 < |items| {
        LayoutStart(data, items, i + 1, e + 2);
        CursorSkipsComma(data, InArray(e + 1, items, i + 1));
        ReadOneString(data, numbers, items, i, pre, idx);
        ReadRemainingStrings(data, numbers, items, i + 1, e + 2, e + 1);
      } else {
        LayoutStart(data, items, i + 1, e + 1);
        assert Cursor(data, InArray(e + 1, items, i + 1)) == e + 1;
        ReadOneString(data, numbers, items, i, pre, idx);
        ReadRemainingStrings(data, numbers, items, i + 1, e + 1, e + 1);
      }
    }
  }

  /**
   An array of string nodes, none of which holds a double quote or a NUL
   byte, reads back from its own text as the same array.
   */
  lemma StringArrayRoundTrip(items: seq<seq<byte>>, numbers: Numbers, fmt: Formats)
    requires forall k :: 0 <= k < |items| ==> Quotable(items[k])
    ensures Parse(Json(ArrayElement(Strings(items)), fmt), numbers) == Some(ArrayElement(Strings(items)))
  {
    var data := Json(ArrayElement(Strings(items)), fmt);
    ArrayTextLayout(items, fmt);
    LayoutStart(data, items, 0, 1);
    assert Cursor(data, Start) == 0;
    var st := Step(data, numbers, Start);
    assert items[..0] == [];
    assert st == InArray(1, items, 0);
    assert Cursor(data, st) == 1;
    ReadRemainingStrings(data, numbers, items, 0, 1, 1);
    assert Run(data, numbers, Start) == Run(data, numbers, st);
  }

  /** The text of an array of strings is an open bracket followed by the layout of the strings. */
  lemma ArrayTextLayout(items: seq<seq<byte>>, fmt: Formats)
    ensures var data := Json(ArrayElement(Strings(items)), fmt);
      |data| > 1 && data[0] == OpenBrace && Layout(data, items, 0, 1)
  {
    var vs := Strings(items);
    var parts := QuotedAll(items);
    assert ItemTexts(vs, fmt) == parts;
    var data := Json(ArrayElement(vs), fmt);
    assert data == [OpenBrace] + Join(parts) + [CloseBrace];
    if |items| > 0 {
      assert data[1..] == Join(parts[0..]) + [CloseBrace] by { assert parts[0..] == parts; }
      TextHasLayout(data, items, 0, 1);
    }
  }
}

=== FILE: scanner.dfy ===
/**
 The two scanning primitives of the reader, `strskip` and `strstrNoEscaped`.
 Both walk forward from an offset and stop at the end of the buffer or at a
 NUL byte, which the Swift code treats as the end of the input as well.
 */
module Scanner {
  import opened Bytes

  /**
   `strskip`: the first offset at or after `offset` whose byte is NUL or not
   in `allowed`, or the end of the buffer. An offset already past the end is
   returned as it is, since the Swift stride from it is empty.
   */
  function StrSkip(json: seq<byte>, offset: nat, allowed: set<byte>): (r: nat)
    ensures offset <= r
    ensures offset <= |json| ==> r <= |json|
    ensures offset > |json| ==> r == offset
    ensures forall j :: offset <= j < r ==> At(json, j) != Nul && At(json, j) in allowed
    ensures r < |json| ==> json[r] == Nul || json[r] !in allowed
    decreases |json| - offset
  {
    if offset < |json| && json[offset] != Nul && json[offset] in allowed then
      StrSkip(json, offset + 1, allowed)
    else
      offset
  }

  /**
   The loop of `strstrNoEscaped` from `idx` on. The Swift loop carries a
   `skipNext` flag meant to step over escaped bytes, but nothing ever sets it,
   so from the initial `false` the flag stays `false`.
   */
  function StrstrFrom(json: seq<byte>, idx: nat, find: byte, skipNext: bool): (r: nat)
    ensures idx <= r
    ensures idx <= |json| ==> r <= |json|
    ensures idx > |json| ==> r == idx
    ensures !skipNext ==> forall j :: idx <= j < r ==> At(json, j) != find && At(json, j) != Nul
    ensures !skipNext && r < |json| ==> json[r] == find || json[r] == Nul
    decreases |json| - idx
  {
    if idx >= |json| || json[idx] == Nul then idx
    else if skipNext then StrstrFrom(json, idx + 1, find, false)
    else if json[idx] == find then idx
    else StrstrFrom(json, idx + 1, find, skipNext)
  }

  /**
   `strstrNoEscaped`: the first offset at or after `offset` holding `find`,
   or the first NUL, or the end of the buffer. No byte before the result is
   `find`; a backslash in front of `find` does not hide it.
   */
  function StrstrNoEscaped(json: seq<byte>, offset: nat, find: byte): (r: nat)
    ensures offset <= r
    ensures offset <= |json| ==> r <= |json|
    ensures offset > |json| ==> r == offset
    ensures forall j :: offset <= j < r ==> At(json, j) != find && At(json, j) != Nul
    ensures r < |json| ==> json[r] == find || json[r] == Nul
  {
    StrstrFrom(json, offset, find, false)
  }

  /**
   Writing a backslash over any byte that is neither the delimiter nor NUL
   leaves the result unchanged: escapes are not recognised.
   */
  lemma {:induction false} BackslashDoesNotEscape(json: seq<byte>, offset: nat, find: byte, j: nat)
    requires j < |json| && json[j] != find && json[j] != Nul && find != BackSlash
    ensures StrstrNoEscaped(json[j := BackSlash], offset, find) == StrstrNoEscaped(json, offset, find)
    decreases |json| - offset
  {
    var json' := json[j := BackSlash];
    if offset < |json| && json[offset] != Nul && json[offset] != find {
      assert json'[offset] != Nul && json'[offset] != find;
      BackslashDoesNotEscape(json, offset + 1, find, j);
    }
  }

  /** The byte sequence `"a\"b"`: a quoted `a`, a backslash, a quote, `b`, a quote. */
  const EscapedQuoteSample: seq<byte> := [DoubleQuote, LetterA, BackSlash, DoubleQuote, 98, DoubleQuote]

  /** In `"a\"b"` the closing quote found after the opening one is the escaped one at offset 3. */
  lemma EscapedQuoteEndsString()
    ensures StrstrNoEscaped(EscapedQuoteSample, 1, DoubleQuote) == 3
  {
    var s := EscapedQuoteSample;
    var r := StrstrNoEscaped(s, 1, DoubleQuote);
    assert At(s, 3) == DoubleQuote;
    assert r != 1 && r != 2 by { assert s[1] == LetterA && s[2] == BackSlash; }
  }
}

=== FILE: serializer.dfy ===
/**
 The compact serializer `JsonElement.json(hitch:)`.

 `Json` is the reference meaning of a node's text, written as one expression
 per tag. `WriteJson` follows the Swift method: it appends to a growing
 buffer byte group by byte group and walks the children with an index loop.
 `WriteJsonAppends` ties the two together.
 */
module Serializer {
  import opened Bytes
  import opened Element

  /** The Hitch number formatters `append(number:)` and `append(double:)`, which are not part of this model. */
  datatype Formats = Formats(number: int64 -> seq<byte>, double: Float64 -> seq<byte>)

  /** The parts, separated by single commas. */
  function Join(parts: seq<seq<byte>>): seq<byte>
  {
    if |parts| == 0 then []
    else if |parts| == 1 then parts[0]
    else parts[0] + [Comma] + Join(parts[1..])
  }

  /** One dictionary entry: the key in double quotes, a colon, the value's text. */
  function Member(key: seq<byte>, value: seq<byte>): seq<byte>
  {
    [DoubleQuote] + key + [DoubleQuote, Colon] + value
  }

  /** The text of a node. */
  function Json(e: JsonElement, fmt: Formats): seq<byte>
    requires Serializable(e)
    decreases e
  {
    match e.kind
    case Null => NullText
    case Boolean =>
      if e.valueBool.None? then NullText
      else if e.valueBool.value then TrueText else FalseText
    case String =>
      if e.valueString.None? then NullText
      else [DoubleQuote] + e.valueString.value + [DoubleQuote]
    case Int =>
      if e.valueInt.None? then NullText else fmt.number(e.valueInt.value)
    case Double =>
      if e.valueDouble.None? then NullText else fmt.double(e.valueDouble.value)
    case Array =>
      if e.valueArray.NoElements? then NullText
      else [OpenBrace] + Join(ItemTexts(e.valueArray.items, fmt)) + [CloseBrace]
    case Dictionary =>
      if e.valueArray.NoElements? || e.keyArray.None? then NullText
      else [OpenBracket] + Join(MemberTexts(e.keyArray.value, e.valueArray.items, fmt)) + [CloseBracket]
  }

  /** `json(hitch:)`: appends the text of `e` to `hitch` and returns the grown buffer. */
  function WriteJson(hitch: seq<byte>, e: JsonElement, fmt: Formats): seq<byte>
    requires Serializable(e)
    decreases e, 1
  {
    match e.kind
    case Null => hitch + NullText
    case Boolean =>
      if e.valueBool.None? then hitch + NullText
      else if e.valueBool.value then hitch + TrueText else hitch + FalseText
    case String =>
      if e.valueString.None? then hitch + NullText
      else hitch + [DoubleQuote] + e.valueString.value + [DoubleQuote]
    case Int =>
      if e.valueInt.None? then hitch + NullText else hitch + fmt.number(e.valueInt.value)
    case Double =>
      if e.valueDouble.None? then hitch + NullText else hitch + fmt.double(e.valueDouble.value)
    case Array =>
      if e.valueArray.NoElements? then hitch + NullText
      else WriteItems(hitch + [OpenBrace], e, 0, fmt) + [CloseBrace]
    case Dictionary =>
      if e.valueArray.NoElements? || e.keyArray.None? then hitch + NullText
      else WriteMembers(hitch + [OpenBracket], e, 0, fmt) + [CloseBracket]
  }

  /** The array loop of `json(hitch:)` from index `idx` on: each element, then a comma unless it is the last. */
  function WriteItems(hitch: seq<byte>, e: JsonElement, idx: nat, fmt: Formats): seq<byte>
    requires e.kind == Array && e.valueArray.Elements? && Serializable(e)
    requires idx <= |e.valueArray.items|
    decreases e, 0, |e.valueArray.items| - idx
  {
    var vs := e.valueArray.items;
    if idx == |vs| then hitch
    else
      var written := WriteJson(hitch, vs[idx], fmt);
      WriteItems(if idx < |vs| - 1 then written + [Comma] else written, e, idx + 1, fmt)
  }

  /** The dictionary loop of `json(hitch:)`: `"key":value` for each key index, comma separated. */
  function WriteMembers(hitch: seq<byte>, e: JsonElement, idx: nat, fmt: Formats): seq<byte>
    requires e.kind == Dictionary && e.valueArray.Elements? && e.keyArray.Some? && Serializable(e)
    requires idx <= |e.keyArray.value|
    decreases e, 0, |e.keyArray.value| - idx
  {
    var ks := e.keyArray.value;
    var vs := e.valueArray.items;
    if idx == |ks| then hitch
    else
      var written := WriteJson(hitch + [DoubleQuote] + ks[idx] + [DoubleQuote, Colon], vs[idx], fmt);
      WriteMembers(if idx < |ks| - 1 then written + [Comma] else written, e, idx + 1, fmt)
  }

  /** The texts of the children, in order, as the reference serializer joins them. */
  function ItemTexts(vs: seq<JsonElement>, fmt: Formats): seq<seq<byte>>
    requires forall i :: 0 <= i < |vs| ==> Serializable(vs[i])
    decreases vs
  {
    seq(|vs|, i requires 0 <= i < |vs| => Json(vs[i], fmt))
  }

  /** The `"key":value` texts of the keyed entries, in order. */
  function MemberTexts(ks: seq<seq<byte>>, vs: seq<JsonElement>, fmt: Formats): seq<seq<byte>>
    requires |ks| <= |vs|
    requires forall i :: 0 <= i < |ks| ==> Serializable(vs[i])
    decreases vs
  {
    seq(|ks|, i requires 0 <= i < |ks| => Member(ks[i], Json(vs[i], fmt)))
  }

  /** Joining from the front: the first part, then a comma and the rest when there is a rest. */
  lemma JoinSuffix(parts: seq<seq<byte>>, i: nat)
    requires i < |parts|
    ensures Join(parts[i..]) == parts[i] + (if i < |parts| - 1 then [Comma] + Join(parts[i + 1..]) else [])
  {
    assert parts[i..][1..] == parts[i + 1..];
  }

  /**
   `json(hitch:)` only appends: the buffer's prior contents stay an unchanged
   prefix, and what follows is the node's reference text.
   */
  lemma {:induction false} WriteJsonAppends(hitch: seq<byte>, e: JsonElement, fmt: Formats)
    requires Serializable(e)
    ensures WriteJson(hitch, e, fmt) == hitch + Json(e, fmt)
    decreases e, 1
  {
    match e.kind
    case Array =>
      if e.valueArray.Elements? {
        var vs := e.valueArray.items;
        WriteItemsAppends(hitch + [OpenBrace], e, 0, fmt);
        assert ItemTexts(vs, fmt)[0..] == ItemTexts(vs, fmt);
      }
    case Dictionary =>
      if e.valueArray.Elements? && e.keyArray.Some? {
        var ks := e.keyArray.value;
        WriteMembersAppends(hitch + [OpenBracket], e, 0, fmt);
        assert MemberTexts(ks, e.valueArray.items, fmt)[0..] == MemberTexts(ks, e.valueArray.items, fmt);
      }
    case _ =>
  }

  lemma {:induction false} WriteItemsAppends(hitch: seq<byte>, e: JsonElement, idx: nat, fmt: Formats)
    requires e.kind == Array && e.valueArray.Elements? && Serializable(e)
    requires idx <= |e.valueArray.items|
    ensures WriteItems(hitch, e, idx, fmt) == hitch + Join(ItemTexts(e.valueArray.items, fmt)[idx..])
    decreases e, 0, |e.valueArray.items| - idx
  {
    var vs := e.valueArray.items;
    var parts := ItemTexts(vs, fmt);
    if idx < |vs| {
      var written := WriteJson(hitch, vs[idx], fmt);
      WriteJsonAppends(hitch, vs[idx], fmt);
      var next := if idx < |vs| - 1 then written + [Comma] else written;
      WriteItemsAppends(next, e, idx + 1, fmt);
      JoinSuffix(parts, idx);
      if idx == |vs| - 1 {
        assert parts[idx + 1..] == [];
      }
    }
  }

  lemma {:induction false} WriteMembersAppends(hitch: seq<byte>, e: JsonElement, idx: nat, fmt: Formats)
    requires e.kind == Dictionary && e.valueArray.Elements? && e.keyArray.Some? && Serializable(e)
    requires idx <= |e.keyArray.value|
    ensures WriteMembers(hitch, e, idx, fmt)
         == hitch + Join(MemberTexts(e.keyArray.value, e.valueArray.items, fmt)[idx..])
    decreases e, 0, |e.keyArray.value| - idx
  {
    var ks := e.keyArray.value;
    var vs := e.valueArray.items;
    var parts := MemberTexts(ks, vs, fmt);
    if idx < |ks| {
      var prefix := hitch + [DoubleQuote] + ks[idx] + [DoubleQuote, Colon];
      var written := WriteJson(prefix, vs[idx], fmt);
      WriteJsonAppends(prefix, vs[idx], fmt);
      var next := if idx < |ks| - 1 then written + [Comma] else written;
      WriteMembersAppends(next, e, idx + 1, fmt);
      JoinSuffix(parts, idx);
      if idx == |ks| - 1 {
        assert parts[idx + 1..] == [];
      }
    }
  }

  /** The number of times `b` occurs in `s`. */
  function Count(s: seq<byte>, b: byte): nat
  {
    if |s| == 0 then 0 else (if s[0] == b then 1 else 0) + Count(s[1..], b)
  }

  /** The occurrences of `b` over all parts. */
  function TotalCount(parts: seq<seq<byte>>, b: byte): nat
  {
    if |parts| == 0 then 0 else Count(parts[0], b) + TotalCount(parts[1..], b)
  }

  lemma {:induction false} CountAppend(s: seq<byte>, t: seq<byte>, b: byte)
    ensures Count(s + t, b) == Count(s, b) + Count(t, b)
  {
    if |s| > 0 {
      assert (s + t)[1..] == s[1..] + t;
      CountAppend(s[1..], t, b);
    } else {
      assert s + t == t;
    }
  }

  /**
   Joining adds exactly one comma between neighbouring parts and nothing
   else: `n` parts gain `n - 1` commas, and every other byte occurs as often
   as in the parts together.
   */
  lemma {:induction false} JoinAddsOnlySeparators(parts: seq<seq<byte>>, b: byte)
    ensures |Join(parts)| == (if |parts| == 0 then 0 else TotalLength(parts) + |parts| - 1)
    ensures Count(Join(parts), b) == TotalCount(parts, b) + (if b == Comma && |parts| > 0 then |parts| - 1 else 0)
  {
    if |parts| == 1 {
      assert parts[1..] == [];
    } else if |parts| > 1 {
      JoinAddsOnlySeparators(parts[1..], b);
      CountAppend(parts[0], [Comma], b);
      CountAppend(parts[0] + [Comma], Join(parts[1..]), b);
      assert Count([Comma], b) == if b == Comma then 1 else 0 by {
        assert [Comma][1..] == [];
      }
    }
  }

  /** The bytes over all parts. */
  function TotalLength(parts: seq<seq<byte>>): nat
  {
    if |parts| == 0 then 0 else |parts[0]| + TotalLength(parts[1..])
  }

  /** A node whose tag's payload is missing, which the serializer writes as `null`. */
  predicate PayloadMissing(e: JsonElement)
  {
    match e.kind
    case Null => true
    case Boolean => e.valueBool.None?
    case String => e.valueString.None?
    case Int => e.valueInt.None?
    case Double => e.valueDouble.None?
    case Array => e.valueArray.NoElements?
    case Dictionary => e.valueArray.NoElements? || e.keyArray.None?
  }

  /** A null node, and any node whose payload for its tag is nil, is written as `null`. */
  lemma MissingPayloadIsNull(hitch: seq<byte>, e: JsonElement, fmt: Formats)
    requires Serializable(e) && PayloadMissing(e)
    ensures WriteJson(hitch, e, fmt) == hitch + NullText
  {
  }

  /** A boolean is written as `true` or `false`; a string between double quotes with its bytes unescaped. */
  lemma ScalarTexts(hitch: seq<byte>, b: bool, s: seq<byte>, fmt: Formats)
    ensures WriteJson(hitch, BoolElement(b), fmt) == hitch + (if b then TrueText else FalseText)
    ensures WriteJson(hitch, StringElement(s), fmt) == hitch + [DoubleQuote] + s + [DoubleQuote]
  {
  }

  /**
   An array of `n` elements is written as `[`, the elements' texts separated
   by `n - 1` commas and no whitespace, and `]`.
   */
  lemma ArrayText(hitch: seq<byte>, vs: seq<JsonElement>, fmt: Formats)
    requires Serializable(ArrayElement(vs))
    ensures forall i :: 0 <= i < |vs| ==> Serializable(vs[i])
    ensures WriteJson(hitch, ArrayElement(vs), fmt)
         == hitch + [OpenBrace] + Join(ItemTexts(vs, fmt)) + [CloseBrace]
    ensures |Join(ItemTexts(vs, fmt))| == if |vs| == 0 then 0 else TotalLength(ItemTexts(vs, fmt)) + |vs| - 1
  {
    WriteJsonAppends(hitch, ArrayElement(vs), fmt);
    JoinAddsOnlySeparators(ItemTexts(vs, fmt), Comma);
  }

  /**
   A dictionary is written as `{`, then `"key":value` for each key index in
   order, comma separated, then `}`; values beyond the last key are not
   written.
   */
  lemma DictionaryText(hitch: seq<byte>, e: JsonElement, fmt: Formats)
    requires Serializable(e) && e.kind == Dictionary && e.valueArray.Elements? && e.keyArray.Some?
    ensures var ks := e.keyArray.value;
      var vs := e.valueArray.items;
      && |ks| <= |vs|
      && WriteJson(hitch, e, fmt) == hitch + [OpenBracket] + Join(MemberTexts(ks, vs, fmt)) + [CloseBracket]
      && forall i :: 0 <= i < |ks| ==>
           MemberTexts(ks, vs, fmt)[i] == [DoubleQuote] + ks[i] + [DoubleQuote, Colon] + Json(vs[i], fmt)
  {
    WriteJsonAppends(hitch, e, fmt);
  }
}

=== FILE: wrappers.dfy ===
/** The optional-value type used wherever the Swift code uses `T?`. */
module Wrappers {

  datatype Option<+T> = None | Some(value: T)
}
